=== FILE: README.md ===
# typescript-proxy-reactive, modelled in Dafny

This project models the runtime of `typescript-proxy-reactive`, a small
dependency-tracking library built on JavaScript proxies. `reactive(obj)`
wraps an object in a proxy. `observe(fn)` wraps a function in a *reaction*
and runs it once. While a reaction runs, every property read through a proxy
subscribes it to the `(raw object, key)` pair read. A write through a proxy
that adds a key or changes a value runs every subscribed reaction again.
Map, Set, WeakMap and WeakSet get instrumented methods with the same
tracking and triggering.

The model keeps the source's structure, one module per source file:

- `Store` (store.ts) is a class whose `connections` field maps each raw object to a map from key to a set of reactions (a *bucket*). Buckets are never replaced, so a bucket is named by its `(raw, key)` pair. A reaction's `cleaners` is a sequence of such pairs. The store invariant `Valid` is two-sided: a reaction is in bucket `b` exactly when `b` is in its `cleaners`, and each bucket is listed once. Every operation of the store preserves it.
- `ReactionStack` (reaction.ts) is the stack of running reactions, its three queries, and `registerRunningReaction`.
- `Proxies` (reactive.ts, with the two maps of internals.ts) is the registry of proxies and raw objects, with `reactive`, `createReactive` and `raw`.
- `BaseHandlers` (handlers/base.ts) holds the `get` and `set` traps and `isObject`.
- `Collections` and `CollectionData` (handlers/collections.ts) hold the routing `get` handler, `findReactive`, `patchIterator`, and the twelve instrumented members over an insertion-ordered model of Map and Set data.
- `HandlerTable` (handlers/index.ts) is the constructor-to-handlers table.
- `Execution` (reaction.ts) holds `runReactionWrap`, `queueReactionsForOperation`, and the calling of a reaction's function.
  - A user function is a finite script of property reads, writes, branches, returns and throws.
  - A read or write on a proxy goes through the traps, and a write queues the reactions it triggers.
- `Observe` (observe.ts) holds `observe` and `unobserve`.

The run protocol is proved over the global invariant `Execution.Valid`: the store invariant holds, the stack holds no reaction twice, and no cancelled reaction is on the stack or in a bucket. Every operation preserves `Valid`.

What a run does is stated against an independent record of the run:

- `Execution.Step` is one property read or write an observer body performed. A read records the raw object behind a proxy, the value found there, and the read's completion.
- `Execution.Runs(s, env, log, c)` says that body `s` performs exactly the steps of `log`, in order, along the path its branches take, and completes with `c`.
- `Execution.SubscribedBy(log)` is the set of `(raw, key)` buckets the proxy reads of `log` register.
- `Execution.ReadsSeen` ties each read's raw object to the registry: a value that was a proxy when the run began is still one, with the same raw object (`Proxies.Extends`: the registry maps only grow).
- `Execution.Gave`, part of `ReadsSeen`, ties each read's completion to the value found: a primitive comes back as it is, `null` throws, and an object comes back as a proxy of it (or as itself when it was a proxy already).
- `Execution.FoundIn(objects, log)` says that every read before the first write of `log` found the value that `objects`, the heap as the run began, holds.
- `Execution.Evolves` says that the stack is back to its prior contents, the reactions below the top keep their cleaners, and the top's cleaners are extended by the sequence `added`.
- `Execution.TopGains` says that the elements the top gains are exactly `SubscribedBy(log)`.

A tracked run releases the reaction's old subscriptions, and the reaction ends subscribed to exactly `SubscribedBy(log)`, where `Runs(body, [], log, c)` holds and `c` is the run's completion.

A write through a proxy hands back one `Execution.Invocation` per reaction its queue invoked: the reaction, which way its run went, the steps of that run, and its completion. `Execution.Ran` says that each was skipped exactly when it was already running and otherwise ran its body as `Runs` says. `Execution.QueueRan` says that the runs come in the order invoked, and that the write ends as the first run that did not complete normally, if there is one.

A call of a reaction function (the function `observe` returned) with fuel, whose reaction is not cancelled, hands back the run it delegated to as an `Invocation` as well. `Execution.Delegated` says that the call completes as that run, which is as `Ran` says: `undefined` when the reaction was already running, and otherwise its tracked run.

Quirks of the code are kept as written:

- `isObject(null)` holds, because the code compares with the string `"null"`. So the `get` trap on a `null`-valued property calls `reactive(null)`, and `new Proxy` throws a TypeError.
- `raw(v)` is `undefined` for anything that is not a proxy. It does not return `v`.
- Nothing sets `IS_REACTION`, so `observe` applied to a reaction function wraps it again.
- The base handlers have only `get` and `set`.
- `createReactive` always installs the base handlers. `getHandlers` is never called, so the collection handlers are modelled as methods on a proxy that the script language does not reach.

## Model

| member | source | states |
|---|---|---|
| Store.TrackedKey | src/store.ts:26-28 | an `iterate` operation is filed under the iteration key, any other under its own key, which is never the iteration key |
| Store.Appended | src/store.ts:42-47 | registering adds exactly the one bucket to the cleaners' elements and keeps them duplicate-free |
| Store.AddReactionsForKey | src/store.ts:80-90 | the accumulated set grows by exactly the key's bucket, or not at all when the key has none |
| Store.Store.StoreObservable | src/store.ts:13-16 | the raw object gets an empty key map, so all its buckets read empty; every other bucket and the invariant are kept |
| Store.Store.RegisterReactionForOperation | src/store.ts:22-48 | the reaction joins the bucket under the tracked key (created when missing); no other bucket changes; the cleaners gain the bucket once; a repeated registration leaves the store unchanged; the invariant is kept |
| Store.Store.GetReactionsForOperation | src/store.ts:53-78 | the result is the key's bucket plus, for add/delete/clear, the `length` bucket of an array or the iteration bucket of anything else; missing buckets are empty and the store is not changed |
| Store.Store.ReleaseReaction | src/store.ts:97-106 | the reaction leaves every bucket, its cleaners become empty, every other membership is unchanged, and the invariant is kept |
| ReactionStack.ReactionStack.GetRunningReaction | src/reaction.ts:67-70 | the running reaction is the last element of the stack, and there is none exactly when the stack is empty |
| ReactionStack.QueriesAgree | src/reaction.ts:57-70 | `hasRunningReaction` holds exactly when there is a running reaction, which `isRunning` reports as running |
| ReactionStack.TrackedBy | src/reaction.ts:12-17 | a tracked operation subscribes to nothing with an empty stack, otherwise to exactly its one bucket |
| ReactionStack.TrackedBuckets | src/reaction.ts:12-17 | after tracking, each bucket is as before, plus the running reaction in the tracked bucket |
| ReactionStack.RegisterRunningReaction | src/reaction.ts:12-17 | only the top of the stack is registered; with an empty stack the store is unchanged; the top ends in the bucket and its cleaners are `Appended` |
| ReactionStack.ReactionStack.Push | src/reaction.ts:47 | the reaction becomes the last element; the rest of the stack is unchanged |
| ReactionStack.ReactionStack.Pop | src/reaction.ts:52 | the last element is removed; the rest of the stack is unchanged |
| Proxies.Registry.Raw | src/reactive.ts:37-39 | `raw` of a proxy is its raw object, and of anything else `undefined` |
| Proxies.RawOfProxy | src/reactive.ts:26-27 | the proxy of the raw object behind a proxy is that proxy |
| Proxies.CreateReactive | src/reactive.ts:22-35 | a proxy distinct from every proxy, raw object and heap object is recorded in both maps; the raw object gets its empty store entry; both invariants are kept |
| Proxies.Reactive | src/reactive.ts:6-20 | a proxy comes back unchanged; a wrapped raw object gets its existing proxy and nothing changes; a new object gets a fresh proxy with `raw(proxy) == obj`; a primitive throws a TypeError |
| JsHeap.FreshId | src/reactive.ts:23 | a new object identity lies outside every identity in use |
| JsHeap.Heap.SetProp | src/handlers/base.ts:47 | the property is written and no other property or object changes |
| BaseHandlers.IsObjectAcceptsNull | src/handlers/base.ts:67-69 | derived from `typeof`: the comparison with the string `"null"` excludes nothing, so `isObject` holds exactly when `typeof` gives `"object"`, which is for objects and for `null` |
| BaseHandlers.Get | src/handlers/base.ts:14-34 | a well-known symbol key returns the value and changes nothing; any other key is tracked as a `get` of the key, the running reaction's cleaners are `Appended` with its bucket, and the result is wrapped as `WrapsResult` describes |
| BaseHandlers.TrackedGet | src/handlers/base.ts:21-33 | the running reaction alone gains the bucket of the key; an already-wrapped object comes back as its existing proxy, a new object as a new proxy wrapping it, `null` throws, any other primitive comes back unchanged |
| BaseHandlers.WrapResult | src/handlers/base.ts:25-33 | an object that already has a proxy comes back as that existing proxy; a proxy comes back as itself; any other object as a new proxy whose raw object it is; `null` throws; other primitives come back unchanged; no subscription changes and the registry only grows |
| BaseHandlers.Unwrapped | src/handlers/base.ts:39-41 | the value written is never a proxy, and a value that is not a proxy is written as it is |
| BaseHandlers.Set | src/handlers/base.ts:37-65 | the unwrapped value is written; a key the target did not own reports `add`; a changed value (`!==`) reports `set`; an equal value reports nothing |
| HandlerTable.GetHandlers | src/handlers/index.ts:7-28 | Map, Set, WeakMap and WeakSet get the collection handlers; Object, Array and the nine typed arrays get the base handlers; every other constructor gets none, so a strategy is found exactly for the constructors in the table |
| CollectionData.Without | src/handlers/collections.ts:100 | deleting keeps exactly the other members |
| CollectionData.WithoutShortens | src/handlers/collections.ts:100 | deleting a present member shortens the list by one and keeps it duplicate-free |
| CollectionData.PutSpec | src/handlers/collections.ts:76 | Map `set` stores the value under the key, other keys are unchanged, and the size grows exactly for a new key |
| CollectionData.AddSpec | src/handlers/collections.ts:90 | Set `add` makes the element present, others unchanged, and the size grows exactly for a new element |
| CollectionData.DeleteSpec | src/handlers/collections.ts:100 | `delete` removes the key, keeps the others with their values, and shrinks the size exactly when the key was present |
| CollectionData.ClearSpec | src/handlers/collections.ts:110 | `clear` leaves an empty collection of the same kind |
| CollectionData.IteratorsAgree | src/handlers/collections.ts:116-142 | `keys`, `values` and `entries` list each member once, in insertion order, and agree with each other and with `has` |
| Collections.Route | src/handlers/collections.ts:156-158 | a routed key names an instrumented member |
| Collections.RouteExact | src/handlers/collections.ts:153-161 | exactly the twelve instrumented keys are routed to `instrumentations` |
| Collections.CollectionGet | src/handlers/collections.ts:154-160 | an instrumented key yields its member; any other key yields the target's own property |
| Collections.ExistingStable | src/handlers/collections.ts:20 | once a value has a proxy, or is a primitive or a proxy, later registrations do not change `rawToProxy.get(v) \|\| v` |
| Collections.FindReactive | src/handlers/collections.ts:11-21 | with no running reaction nothing is created and the existing proxy or the value comes back; with one, an object comes back as an existing or new proxy and `null` throws |
| Collections.PatchIterator | src/handlers/collections.ts:24-37 | each result that is not done has its value (element `[1]` of an entry) passed through `findReactive`; entry keys stay as they are; a throwing `next` ends it |
| Collections.Has | src/handlers/collections.ts:41-46 | tracked as `has` of the key; the built-in answer, or a TypeError without a built-in `has` |
| Collections.Get | src/handlers/collections.ts:47-56 | tracked as `get` of the key; the built-in value passed through `findReactive` |
| Collections.ForEach | src/handlers/collections.ts:57-67 | tracked under the iteration key; the callback gets each value through `findReactive`, with its key, in order, and every entry when no error ends it; a missing built-in throws |
| Collections.Keys | src/handlers/collections.ts:116-121 | tracked under the iteration key; the keys in order, unwrapped |
| Collections.Values | src/handlers/collections.ts:122-128 | tracked under the iteration key; the values in order, each through `findReactive` |
| Collections.Entries | src/handlers/collections.ts:129-135 | tracked under the iteration key; the entries in order, element `[1]` through `findReactive` |
| Collections.Iterate | src/handlers/collections.ts:136-142 | tracked under the iteration key; a Map iterates patched entries, a Set its values |
| Collections.Size | src/handlers/collections.ts:143-148 | tracked under the iteration key; the built-in size; a Map or Set prototype without collection data throws a TypeError, and anything else without a built-in `size` gives `undefined` |
| Collections.Set | src/handlers/collections.ts:68-85 | `hadKey` and the old value are read first; a new key reports `add`; a changed value reports `set`; an equal value reports nothing; a WeakMap given a primitive key, or a missing built-in, throws a TypeError with nothing changed or reported; only the target's collection data changes |
| Collections.Add | src/handlers/collections.ts:86-95 | only an element that was absent reports `add`; a WeakSet given a primitive, or a missing built-in, throws a TypeError with nothing changed or reported |
| Collections.Delete | src/handlers/collections.ts:96-105 | only a key that was present reports `delete`, and the built-in result comes back |
| Collections.Clear | src/handlers/collections.ts:106-115 | only a collection that had members reports `clear` |
| Execution.PushKeepsStackValid | src/reaction.ts:37-47 | pushing a reaction that `isRunning` rejected keeps the stack free of duplicates |
| Execution.PopKeepsStackValid | src/reaction.ts:51-53 | popping keeps the stack valid |
| Execution.RunReactionWrap | src/reaction.ts:25-54 | a cancelled reaction runs its function bare, the running reaction outside gaining what it read; a running reaction is skipped with `undefined` and nothing changes; otherwise the reaction ends subscribed to exactly `SubscribedBy(log)`; the completion is the body's (`Runs`) on both run paths for a user function, and for a reaction function whose reaction is not cancelled that of the run it delegated to (`Delegated`); each read completed as `Gave` says, and the reads before the first write found the heap as it was (`FoundIn`); the stack is restored |
| Execution.RunPushed | src/reaction.ts:44-53 | the old subscriptions are released before the run: afterwards the reaction is subscribed to exactly what this run read, none of the earlier buckets; the completion is the body's for a user function, and that of the delegated run (`Delegated`) for a reaction function whose reaction is not cancelled; the reads before the first write found the heap as it was; the stack and the reactions outside are as before |
| Execution.RunOnTop | src/reaction.ts:45-53 | the reaction, pushed with empty cleaners, ends with exactly the buckets its run read; the pop restores the stack whether the function returned or threw; the completion is the body's for a user function, and that of the delegated run (`Delegated`) for a reaction function whose reaction is not cancelled; the reads before the first write found the heap as it was |
| Execution.RunAsTop | src/reaction.ts:45-49 | with the reaction on top and empty cleaners, its function runs; the reaction ends with exactly the buckets the run read, the completion is the body's for a user function and that of the delegated run (`Delegated`) for a reaction function whose reaction is not cancelled, the reads before the first write found the heap as it was, and the reactions below are untouched |
| Execution.RunCallable | src/observe.ts:19-21 | a user function runs its body (`Runs`) and the running reaction gains exactly `SubscribedBy(log)`; the reads before the first write found the heap as it was; a reaction function delegates to `runReactionWrap`, gaining nothing unless its reaction is cancelled and runs bare; when its reaction is not cancelled, the call completes as the delegated run (`Delegated`), `undefined` if that reaction was already running and its tracked run otherwise; without fuel it ends with `OutOfFuel` and changes no cleaners |
| Execution.ReadProperty | src/handlers/base.ts:14-34 | a read of a proxy is the `get` trap on its raw object and gives that object's own value, wrapped as `WrapsResult` says (a primitive as it is, an object as its proxy, `null` throws), or as it is for a well-known symbol; any other read gives the plain value, tracks nothing and changes nothing |
| Execution.ReadThrough | src/handlers/base.ts:14-34 | the `get` trap seen from the running reaction: its cleaners gain the key's bucket, the reactions below it are untouched, and the result is the raw object's own value, wrapped as `WrapsResult` says |
| Execution.GetOnStack | src/handlers/base.ts:14-34 | the `get` trap changes the cleaners of the reaction on top of the stack only, appending the key's bucket unless the key is a well-known symbol; the reactions below keep theirs and the state stays valid; the result is as `WrapsResult` says |
| Execution.WriteProperty | src/handlers/base.ts:37-65 | a write through a proxy reports `add`/`set`/nothing as the `set` trap decides and queues exactly the triggered reactions, each once, each run as `QueueRan` says (tracked unless already running, performing its body's steps); a raw write changes the one property and triggers nothing; a write on a primitive throws; no running reaction gains a subscription |
| Execution.WriteThrough | src/handlers/base.ts:37-65 | the `set` trap on a wrapped raw object: a new key queues `add`, a changed value `set`, an equal value nothing (`undefined` comes back, nothing runs, no cleaners change); the reactions invoked are exactly the triggered ones, each once, when none throws, and their runs are as `QueueRan` says |
| Execution.InvokedStep | src/reaction.ts:20-22 | invoking one more pending reaction keeps the invoked ones exactly the triggered ones no longer pending, each once |
| Execution.Queue | src/reaction.ts:20-22 | every reaction of the triggered set, computed before any runs, is invoked exactly once, unless one throws or fuel runs out first; only triggered reactions are invoked; their runs, in order, are as `QueueRan` says, and the queue ends as the first run that did not complete normally; no running reaction gains a subscription |
| Execution.RunAll | src/reaction.ts:21 | the `forEach` of the queue: each reaction of the set is invoked once, in some order, until one does not complete normally; its runs are as `QueueRan` says; with no fuel and a nonempty set nothing runs and the result is `OutOfFuel` |
| Execution.QueueStep | src/reaction.ts:21 | the runs so far and one more run make up the runs of a queue that ends as the new run does |
| Execution.TriggeredObserved | src/reaction.ts:20-21 | every reaction in a triggered bucket is known and not cancelled, so a queued reaction runs under its own tracking |
| Execution.InvokeQueued | src/reaction.ts:21 | one queued, uncancelled reaction runs through `runReactionWrap`: it is skipped exactly when it is already running, and otherwise runs its body (`Runs`, for a user function) and ends subscribed to exactly `SubscribedBy(log)`; the reads before the first write found the heap as it was; the stack and the running reaction's cleaners are kept, and no reaction gets cancelled |
| Execution.ExecScript | src/reaction.ts:49 | the body performs exactly the steps of `log` and completes with `c` (`Runs`); the running reaction gains exactly the buckets of the proxy reads among them; each read's raw object is the one the registry gives and its result is what `Gave` says of the value found; the reads before the first write found the heap as it was (`FoundIn`); reads and writes on `undefined`/`null` throw |
| Execution.ExecRead | src/handlers/base.ts:14-34 | a read step followed by the rest of the body: `Runs` holds for the whole, the read found the heap as it was (`FoundIn`), and the running reaction gains the read's bucket plus the rest's |
| Execution.ExecAfterRead | src/handlers/base.ts:14-34 | after a read that completed normally, the rest of the body runs with the value read bound; the read and the rest make up a log for which `Runs`, `FoundIn` and the read accounting hold from the state before the read |
| Execution.ReadStepOf | src/handlers/base.ts:14-34 | a read is recorded as a step with the raw object behind a proxy and the value the heap holds there; its completion is what `Gave` says of that value; the running reaction gains exactly that step's bucket; `undefined`/`null` throw |
| Execution.ExecWrite | src/handlers/base.ts:37-65 | a write step followed, if it completed normally, by the rest of the body: `Runs` holds for the whole; the write subscribes nothing; a write on `undefined`/`null` throws |
| Observe.Observe | src/observe.ts:12-28 | a flagged function comes back unchanged and nothing runs; otherwise one new, uncancelled reaction wrapping the function is run once, that first run's completion `c` is the body's for a user function (`Runs`), `observe` returns the reaction (`result`) and rethrows when `c` is abrupt, each read gave what `Gave` says and the reads before the first write found the heap as it was (`FoundIn`), and it ends in exactly the buckets of `SubscribedBy(log)` |
| Observe.Unobserve | src/observe.ts:31-36 | the reaction is marked cancelled and is in no bucket; other memberships are unchanged; a second call changes nothing |
| Observe.CancelledInNoBucket | src/observe.ts:31-35 | a cancelled reaction has empty cleaners and is in no bucket; it is run bare, so it stays out of every bucket |
| Scenarios.ObserveReadSubscribes | src/observe.ts:12-28 | `observe` of a function that reads `p.a` on a proxy `p` of `raw` leaves the new reaction in the bucket of `(raw, "a")` |
| Scenarios.RerunDropsSubscriptions | src/reaction.ts:41-53 | a subscribed reaction whose function now reads nothing is, after `runReactionWrap`, in no bucket, the old one included, and completes with its return value |
| Scenarios.ObserveCompletesAsBody | src/observe.ts:19-24 | the first run of `observe(() => 7)` completes with `7`, and the new reaction is subscribed to nothing; `observe` discards that value and returns the reaction |
| Scenarios.ReadThroughProxyGivesStored | src/handlers/base.ts:14-34 | `p.a`, read through a proxy `p` of `raw` whose `a` holds `1`, gives `1` |
| Scenarios.ObserveSeesStored | src/observe.ts:12-28 | the first run of `observe(() => p.a)`, where `raw.a` holds `1`, completes with `1` |
| Scenarios.ObserveBranchSubscribes | src/reaction.ts:41-49 | `observe(() => p.flag ? p.a : undefined)`, where `raw.flag` is `true`, takes the branch, so the new reaction ends in the buckets of both `(raw, "flag")` and `(raw, "a")` |
| Scenarios.WriteRerunsReader | src/handlers/base.ts:37-65 | with nothing running, writing `p.a = 2` over a `1` reports `set` on `(raw, "a")`; a reaction that read `p.a` is invoked, exactly once, unless the queue failed, and each of its runs is tracked and reads `p.a` again, so it re-subscribes to `(raw, "a")` |
| Scenarios.CallRunningReactionGivesUndefined | src/reaction.ts:36-39 | calling the function `observe` returned for an uncancelled reaction that is already running skips it and gives `undefined` |

## Left out

- Weak references: the `WeakMap`s are plain maps, and garbage collection is not modelled.
- The prototype chain and `Reflect`: reads and writes are own properties, `Reflect.set` always succeeds, and the `receiver` argument is dropped.
- Arrays do not update `length` on their own; `length` is an ordinary property.
- Numbers are integers: floating point, typed-array element conversion and `NaN` (for which `!==` differs) are not modelled.
- Iterators are finite sequences of results computed eagerly, not lazy objects.
- `forEach` callbacks are not run: `Collections.ForEach` gives, for each entry, the first two arguments the callback would receive, the value through `findReactive` and the key. The third argument, which is the raw collection itself rather than its proxy (so a callback could reach it unwrapped), and the `thisArg` passed on to the built-in are dropped.
- Subclasses of the collections: an instance of a class extending `Map`, `Set`, `WeakMap` or `WeakSet` has its own prototype, so `ShapeOf` treats it as a plain object and every instrumented member throws a TypeError, while in the source the subclass prototype inherits the built-ins and the call works. The handlers for collections are never installed by `createReactive`, so this does not reach the proxies modelled here.
- User functions are finite scripts. They cannot allocate objects, call `observe`/`unobserve`, or call collection members.
- Keys are values: property-key coercion (`1` versus `"1"`) is not modelled, and the well-known symbols are `Sym(0)` to `Sym(12)`.
- Reading a property of a primitive other than `undefined`/`null` gives `undefined`.
- Re-triggering is unbounded in the source. Each reaction invocation costs one unit of fuel, and a run that runs out ends with `OutOfFuel`.
- Queue order: reactions are invoked in an unspecified order, not insertion order.
- Symbols as weak keys: a WeakMap or WeakSet here refuses every primitive key, symbols included; the non-registered symbols a newer edition of ECMAScript accepts are not modelled.
- Execution.ExecScript: a read made after the body's first write is tied only to the value it found (`Gave`), not to the heap; the heap after a write depends on the reactions the write ran, which the log does not record.
- Execution.ExecRead: as for `ExecScript`, reads after the first write are tied only to the value found.
- Execution.ExecAfterRead: as for `ExecScript`, reads after the first write are tied only to the value found.
- Execution.ExecWrite: as for `ExecScript`, reads after the first write are tied only to the value found.
- Execution.RunCallable: as for `ExecScript`, reads after the first write are tied only to the value found.
- Execution.RunAsTop: as for `ExecScript`, reads after the first write are tied only to the value found.
- Execution.RunOnTop: as for `ExecScript`, reads after the first write are tied only to the value found.
- Execution.RunPushed: as for `ExecScript`, reads after the first write are tied only to the value found.
- Execution.RunReactionWrap: as for `ExecScript`, reads after the first write are tied only to the value found.
- Execution.InvokeQueued: as for `ExecScript`, reads after the first write are tied only to the value found.
- Observe.Observe: as for `ExecScript`, reads after the first write are tied only to the value found.
- Execution.Queue: only the order of the runs and each run's own steps are stated; what a later run read is tied to the value it found, not to the heap the earlier runs left.
- Execution.RunAll: as for `Queue`, a later run's reads are tied only to the values found.
- Execution.WriteThrough: as for `Queue`, the runs' reads are tied only to the values found, not to the heap after the write.
- Execution.WriteProperty: as for `Queue`, the runs' reads are tied only to the values found, not to the heap after the write.
- Execution.RunCallable: a call of a reaction function whose reaction is cancelled runs that reaction's function bare; when that function is itself a reaction function, the completion of the nested call is not stated. `Delegated` covers one level of delegation: the run it hands back states its own completion only for a user function.
- Execution.RunReactionWrap: as for `RunCallable`, the completion is stated for a user function and for one level of delegation to a reaction whose reaction is not cancelled, not for deeper chains of reaction functions.
- Execution.InvokeQueued: a queued reaction that wraps a reaction function is recorded by `Ran` with its completion, but that completion is not tied to a body.
- Observe.Unobserve: requires the reaction not to be running. A reaction that cancels itself while it runs, which the source allows, is not modelled.
- The `this`/`args` plumbing of reaction functions is not modelled.
- The import mismatches between the handler files and `src/internals.ts` are not modelled.

=== FILE: base_handlers.dfy ===
/**
 * The proxy handlers for plain objects, arrays and typed arrays: a `get`
 * trap that tracks the read and wraps composite results lazily, and a `set`
 * trap that unwraps proxies, writes, and reports the operation to trigger.
 * There is no `deleteProperty`, `has` or `ownKeys` trap.
 */
module BaseHandlers {
  import opened Types
  import opened JsHeap
  import opened Store
  import opened ReactionStack
  import opened Proxies

  /** `Symbol.asyncIterator` ... `Symbol.unscopables`: the thirteen well-known symbols are `Sym(0)` to `Sym(12)`. */
  const WELL_KNOWN_SYMBOL_COUNT: nat := 13

  /** `Symbol.iterator`. */
  const SYMBOL_ITERATOR: Value := Sym(3)

  /** `typeof key === "symbol" && wellKnownSymbols.has(key)`. */
  predicate IsWellKnownSymbol(key: Value)
  {
    key.Sym? && key.id < WELL_KNOWN_SYMBOL_COUNT
  }

  /** The `typeof` operator; function values are not modelled. */
  function TypeOf(v: Value): string
  {
    match v
    case Undefined => "undefined"
    case Null => "object"
    case Bool(_) => "boolean"
    case Num(_) => "number"
    case Str(_) => "string"
    case Sym(_) => "symbol"
    case Ref(_) => "object"
  }

  /** `isObject`: `typeof val === "object" && val !== "null"`, the second test comparing with a string. */
  predicate IsObject(v: Value)
  {
    TypeOf(v) == "object" && v != Str("null")
  }

  /**
   * The comparison with the string "null" never excludes anything, so
   * `isObject` holds for `null` as well as for objects, and for no other value.
   */
  lemma IsObjectAcceptsNull()
    ensures forall v :: IsObject(v) <==> TypeOf(v) == "object"
    ensures forall v :: IsObject(v) <==> v.Ref? || v == Null
  {
    forall v
      ensures IsObject(v) <==> v.Ref? || v == Null
    {
      match v
      case Str(_) =>
      case _ =>
    }
  }

  /** What the handlers need of the registry, the store and the stack. */
  ghost predicate HandlerState(reg: Registry, store: Store, stack: ReactionStack)
    reads reg, store, store.known, stack
  {
    && reg.Valid() && store.Valid() && Aligned(reg, store)
    && (forall q <- stack.items :: q in store.known)
  }

  /**
   * The `get` trap on a proxy of `target`. A well-known symbol key gives the
   * property value and tracks nothing. Any other key is registered as a
   * `get` of (target, key) for the running reaction; an object result comes
   * back as its proxy (an existing one, or one made now), `null` makes
   * `reactive(null)` throw, and any other primitive comes back as it is.
   */
  method Get(reg: Registry, store: Store, stack: ReactionStack, heap: Heap, target: ObjId, key: Value)
    returns (c: Completion, ghost tracked: set<Bucket>)
    requires HandlerState(reg, store, stack) && target in reg.rawToProxy
    modifies reg, store`connections, stack.items`cleaners
    ensures HandlerState(reg, store, stack) && Tracks(stack, store, tracked) && Grown(reg)
    ensures IsWellKnownSymbol(key) ==>
              && c == Normal(Lookup(heap.Props(target), key)) && tracked == {}
              && store.connections == old(store.connections) && reg.rawToProxy == old(reg.rawToProxy)
              && store.Cleaners() == old(store.Cleaners())
    ensures !IsWellKnownSymbol(key) ==> tracked == TrackedBy(stack, Operation(GetOp, target, key))
    ensures !IsWellKnownSymbol(key) && stack.items != [] ==>
              stack.items[|stack.items| - 1].cleaners
                == Appended(old(stack.items[|stack.items| - 1].cleaners), (target, KeyOf(key)))
    ensures !IsWellKnownSymbol(key) ==> WrapsResult(reg, Lookup(heap.Props(target), key), c)
  {
    if IsWellKnownSymbol(key) {
      return Normal(Lookup(heap.Props(target), key)), {};
    }
    c, tracked := TrackedGet(reg, store, stack, heap, target, key);
  }

  /** The `get` trap past the well-known-symbol test: the read is registered, then the result is wrapped. */
  method TrackedGet(reg: Registry, store: Store, stack: ReactionStack, heap: Heap, target: ObjId, key: Value)
    returns (c: Completion, ghost tracked: set<Bucket>)
    requires HandlerState(reg, store, stack) && target in reg.rawToProxy
    modifies reg, store`connections, stack.items`cleaners
    ensures HandlerState(reg, store, stack) && Tracks(stack, store, tracked) && Grown(reg)
    ensures tracked == TrackedBy(stack, Operation(GetOp, target, key))
    ensures stack.items != [] ==>
              stack.items[|stack.items| - 1].cleaners
                == Appended(old(stack.items[|stack.items| - 1].cleaners), (target, KeyOf(key)))
    ensures WrapsResult(reg, Lookup(heap.Props(target), key), c)
  {
    var result := Lookup(heap.Props(target), key);
    assert TrackedKey(Operation(GetOp, target, key)) == KeyOf(key);
    tracked := RegisterRunningReaction(stack, store, Operation(GetOp, target, key));
    c := WrapResult(reg, store, stack, heap, result);
  }

  /**
   * What the `get` trap returns for a tracked read of `result`: an object
   * that already has a proxy comes back as that proxy, any other object as a
   * proxy made now, which wraps it; `null` makes `reactive(null)` throw; any other primitive comes back
   * as it is.
   */
  twostate predicate WrapsResult(reg: Registry, result: Value, c: Completion)
    reads reg
  {
    && (!IsObject(result) ==> c == Normal(result))
    && (result == Null ==> c == Abrupt(TypeError))
    && (result.Ref? ==>
          && c.Normal? && reg.IsProxy(c.value)
          && (old(reg.IsProxy(result)) ==> c.value == result)
          && (result.id in old(reg.rawToProxy) ==> c.value == Ref(old(reg.rawToProxy)[result.id]))
          && (!old(reg.IsProxy(result)) ==> reg.Raw(c.value) == result))
  }

  /** The result half of the `get` trap: an object result is made reactive, unless it already has a proxy. */
  method WrapResult(reg: Registry, store: Store, stack: ReactionStack, heap: Heap, result: Value) returns (c: Completion)
    requires reg.Valid() && store.Valid() && Aligned(reg, store)
    modifies reg, store`connections
    ensures stack.items != [] ==> stack.items[|stack.items| - 1].cleaners == old(stack.items[|stack.items| - 1].cleaners)
    ensures reg.Valid() && store.Valid() && Aligned(reg, store) && store.known == old(store.known) && Grown(reg)
    ensures store.Cleaners() == old(store.Cleaners())
    ensures WrapsResult(reg, result, c)
  {
    if IsObject(result) {
      if result.Ref? && result.id in reg.rawToProxy {
        return Normal(Ref(reg.rawToProxy[result.id]));
      }
      c := Reactive(reg, store, heap, result);
    } else {
      c := Normal(result);
    }
  }

  /** The value `set` writes: a proxy is replaced by its raw object (`proxyToRaw.get(value) || value`). */
  function Unwrapped(reg: Registry, value: Value): (v: Value)
    reads reg
    ensures reg.Valid() ==> !reg.IsProxy(v)
    ensures !reg.IsProxy(value) ==> v == value
  {
    if IsObject(value) && reg.IsProxy(value) then reg.Raw(value) else value
  }

  /**
   * The `set` trap on a proxy of `target`: the unwrapped value is written,
   * then a key the target did not own reports `add`, an owned key whose
   * value changes (`!==`) reports `set`, and an unchanged value reports nothing.
   */
  method Set(reg: Registry, heap: Heap, target: ObjId, key: Value, value: Value)
    returns (trigger: Option<Operation>)
    requires reg.Valid()
    modifies heap
    ensures heap.Props(target) == old(heap.Props(target))[key := Unwrapped(reg, value)]
    ensures !reg.IsProxy(heap.Props(target)[key])
    ensures forall o :: o != target ==> heap.Props(o) == old(heap.Props(o))
    ensures forall o :: heap.Coll(o) == old(heap.Coll(o)) && heap.IsArray(o) == old(heap.IsArray(o))
    ensures key !in old(heap.Props(target)) ==> trigger == Some(Operation(AddOp, target, key))
    ensures key in old(heap.Props(target)) ==>
              (Unwrapped(reg, value) != old(heap.Props(target))[key] ==> trigger == Some(Operation(SetOp, target, key)))
    ensures key in old(heap.Props(target)) ==>
              (Unwrapped(reg, value) == old(heap.Props(target))[key] ==> trigger == None)
  {
    var v := value;
    if IsObject(v) && reg.IsProxy(v) {
      v := reg.Raw(v);
    }
    var hadKey := key in heap.Props(target);
    var oldValue := Lookup(heap.Props(target), key);
    heap.SetProp(target, key, v);
    if !hadKey {
      trigger := Some(Operation(AddOp, target, key));
    } else if v != oldValue {
      trigger := Some(Operation(SetOp, target, key));
    } else {
      trigger := None;
    }
  }
}

=== FILE: collection_data.dfy ===
/**
 * The internal data of Map, Set, WeakMap and WeakSet objects and the
 * built-in prototype operations on it (`has`, `get`, `set`, `add`,
 * `delete`, `clear`, `size` and the three iterators), in insertion order.
 * The instrumented methods of the collection handlers call these.
 */
module CollectionData {
  import opened Types

  /** One result of an iterator: a single value, or a `[key, value]` entry. */
  datatype IterValue = Single(v: Value) | Entry(key: Value, val: Value)

  /** Keys are listed once each, and a Map's key list and value map agree. */
  predicate WellFormed(c: Collection)
  {
    match c
    case NoCollection => true
    case MapData(_, keys, vals) => NoDuplicates(keys) && Elems(keys) == vals.Keys
    case SetData(_, elems) => NoDuplicates(elems)
  }

  /** The keys (of a Map) or elements (of a Set), in insertion order. */
  function Members(c: Collection): seq<Value>
  {
    match c
    case NoCollection => []
    case MapData(_, keys, _) => keys
    case SetData(_, elems) => elems
  }

  /** `size`. */
  function Size(c: Collection): nat
  {
    |Members(c)|
  }

  /** `has(key)`. */
  predicate Has(c: Collection, key: Value)
  {
    key in Members(c)
  }

  /** `get(key)` of a Map: the value stored under the key, or `undefined`. */
  function Get(c: Collection, key: Value): Value
  {
    if c.MapData? && key in c.vals then c.vals[key] else Undefined
  }

  /** `s` without `x`, the rest in the same order. */
  function Without(s: seq<Value>, x: Value): (r: seq<Value>)
    ensures forall y :: y in r <==> y in s && y != x
    ensures |r| <= |s|
  {
    if s == [] then []
    else if s[0] == x then Without(s[1..], x)
    else [s[0]] + Without(s[1..], x)
  }

  /** `Map.prototype.set`: a new key goes last, an existing key keeps its place. */
  function Put(c: Collection, key: Value, value: Value): Collection
    requires c.MapData?
  {
    MapData(c.weak, if key in c.keys then c.keys else c.keys + [key], c.vals[key := value])
  }

  /** `Set.prototype.add`: a new element goes last, an existing one stays where it is. */
  function Add(c: Collection, elem: Value): Collection
    requires c.SetData?
  {
    SetData(c.weak, if elem in c.elems then c.elems else c.elems + [elem])
  }

  /** `delete(key)`: the key (or element) and its value are gone. */
  function Delete(c: Collection, key: Value): Collection
  {
    match c
    case NoCollection => c
    case MapData(weak, keys, vals) => MapData(weak, Without(keys, key), vals - {key})
    case SetData(weak, elems) => SetData(weak, Without(elems, key))
  }

  /** `clear()`. */
  function Clear(c: Collection): Collection
  {
    match c
    case NoCollection => c
    case MapData(weak, _, _) => MapData(weak, [], map[])
    case SetData(weak, _) => SetData(weak, [])
  }

  /** What `keys()` yields: the Map keys, or the Set elements. */
  function KeysOf(c: Collection): seq<IterValue>
  {
    seq(|Members(c)|, i requires 0 <= i < |Members(c)| => Single(Members(c)[i]))
  }

  /** What `values()` yields: the Map values, or the Set elements. */
  function ValuesOf(c: Collection): seq<IterValue>
  {
    seq(|Members(c)|, i requires 0 <= i < |Members(c)| =>
      Single(if c.MapData? then Get(c, Members(c)[i]) else Members(c)[i]))
  }

  /** What `entries()` yields: `[key, value]` for a Map, `[elem, elem]` for a Set. */
  function EntriesOf(c: Collection): seq<IterValue>
  {
    seq(|Members(c)|, i requires 0 <= i < |Members(c)| =>
      Entry(Members(c)[i], if c.MapData? then Get(c, Members(c)[i]) else Members(c)[i]))
  }

  /** Removing an element that occurs once shortens a list by exactly one, and keeps it duplicate-free. */
  lemma {:induction false} WithoutShortens(s: seq<Value>, x: Value)
    requires NoDuplicates(s)
    ensures NoDuplicates(Without(s, x))
    ensures |Without(s, x)| == if x in s then |s| - 1 else |s|
  {
    if s != [] {
      assert NoDuplicates(s[1..]);
      WithoutShortens(s[1..], x);
      if s[0] != x {
        assert s[0] !in Without(s[1..], x);
        var r := [s[0]] + Without(s[1..], x);
        forall i, j | 0 <= i < j < |r|
          ensures r[i] != r[j]
        {
          if i == 0 {
            assert r[j] in Without(s[1..], x);
          }
        }
      } else {
        assert x !in s[1..];
      }
    }
  }

  /**
   * `set(key, value)` on a Map: afterwards the key is present with that
   * value, every other key is as it was, and the size grows by one exactly
   * when the key was new.
   */
  lemma PutSpec(c: Collection, key: Value, value: Value)
    requires c.MapData? && WellFormed(c)
    ensures WellFormed(Put(c, key, value))
    ensures Has(Put(c, key, value), key) && Get(Put(c, key, value), key) == value
    ensures forall k :: k != key ==> (Has(Put(c, key, value), k) <==> Has(c, k))
    ensures forall k :: k != key ==> Get(Put(c, key, value), k) == Get(c, k)
    ensures Size(Put(c, key, value)) == if Has(c, key) then Size(c) else Size(c) + 1
  {
    var r := Put(c, key, value);
    if key !in c.keys {
      assert Elems(r.keys) == Elems(c.keys) + {key};
      forall i, j | 0 <= i < j < |r.keys|
        ensures r.keys[i] != r.keys[j]
      {
        if j == |c.keys| {
          assert r.keys[i] in c.keys;
        }
      }
    }
  }

  /** `add(elem)` on a Set: the element is present, others unchanged, size grows exactly when it was new. */
  lemma AddSpec(c: Collection, elem: Value)
    requires c.SetData? && WellFormed(c)
    ensures WellFormed(Add(c, elem))
    ensures Has(Add(c, elem), elem)
    ensures forall k :: k != elem ==> (Has(Add(c, elem), k) <==> Has(c, k))
    ensures Size(Add(c, elem)) == if Has(c, elem) then Size(c) else Size(c) + 1
  {
    var r := Add(c, elem);
    if elem !in c.elems {
      forall i, j | 0 <= i < j < |r.elems|
        ensures r.elems[i] != r.elems[j]
      {
        if j == |c.elems| {
          assert r.elems[i] in c.elems;
        }
      }
    }
  }

  /**
   * `delete(key)`: afterwards the key is absent, every other key keeps its
   * presence and value, and the size shrinks by one exactly when the key was present.
   */
  lemma DeleteSpec(c: Collection, key: Value)
    requires WellFormed(c)
    ensures WellFormed(Delete(c, key))
    ensures !Has(Delete(c, key), key)
    ensures forall k :: k != key ==> (Has(Delete(c, key), k) <==> Has(c, k))
    ensures forall k :: k != key ==> Get(Delete(c, key), k) == Get(c, k)
    ensures Size(Delete(c, key)) == if Has(c, key) then Size(c) - 1 else Size(c)
  {
    match c
    case NoCollection =>
    case MapData(_, keys, _) =>
      WithoutShortens(keys, key);
      assert Elems(Without(keys, key)) == Elems(keys) - {key};
    case SetData(_, elems) =>
      WithoutShortens(elems, key);
  }

  /** `clear()` leaves a well-formed, empty collection of the same kind. */
  lemma ClearSpec(c: Collection)
    requires WellFormed(c)
    ensures WellFormed(Clear(c)) && Size(Clear(c)) == 0
    ensures forall k :: !Has(Clear(c), k)
    ensures Clear(c).MapData? == c.MapData? && Clear(c).SetData? == c.SetData?
  {
  }

  /**
   * The iterators list each member once, in order: `keys()` the members,
   * `values()` their values, `entries()` the pairs of both.
   */
  lemma IteratorsAgree(c: Collection)
    requires WellFormed(c)
    ensures |KeysOf(c)| == |ValuesOf(c)| == |EntriesOf(c)| == Size(c)
    ensures forall i | 0 <= i < Size(c) ::
              && KeysOf(c)[i] == Single(Members(c)[i])
              && EntriesOf(c)[i] == Entry(KeysOf(c)[i].v, ValuesOf(c)[i].v)
    ensures c.SetData? ==> KeysOf(c) == ValuesOf(c)
    ensures forall k :: Has(c, k) <==> Single(k) in KeysOf(c)
  {
    forall k | Has(c, k)
      ensures Single(k) in KeysOf(c)
    {
      var i :| 0 <= i < |Members(c)| && Members(c)[i] == k;
      assert KeysOf(c)[i] == Single(k);
    }
  }
}

=== FILE: collections.dfy ===
/**
 * The collection handlers: `collectionHandlers.get` routes the names of the
 * collection methods to instrumented versions, which track reads under the
 * queried key (or the iteration key), report the operation a mutation must
 * trigger, and hand out proxies for object values through `findReactive`.
 *
 * Each instrumented method runs on a proxy `p` (the `this` of the call); its
 * target is the raw object behind `p`, and the built-in method it delegates
 * to is looked up on the target's prototype, which is missing for the wrong
 * kind of collection and then throws a TypeError.
 */
module Collections {
  import opened Types
  import opened JsHeap
  import opened Store
  import opened ReactionStack
  import opened Proxies
  import Base = BaseHandlers
  import D = CollectionData

  /** The kind of built-in collection an object is, as its prototype and internal data show. */
  datatype Shape = MapShape(weak: bool) | SetShape(weak: bool) | PlainShape

  /**
   * The kind of collection of an object: a Map, Set, WeakMap or WeakSet
   * constructor together with internal data of that kind; anything else is plain.
   */
  function ShapeOf(heap: Heap, id: ObjId): Shape
    reads heap
  {
    if id !in heap.objects then PlainShape
    else
      var o := heap.objects[id];
      match o.ctor
      case MapCtor => if o.coll.MapData? && !o.coll.weak then MapShape(false) else PlainShape
      case WeakMapCtor => if o.coll.MapData? && o.coll.weak then MapShape(true) else PlainShape
      case SetCtor => if o.coll.SetData? && !o.coll.weak then SetShape(false) else PlainShape
      case WeakSetCtor => if o.coll.SetData? && o.coll.weak then SetShape(true) else PlainShape
      case _ => PlainShape
  }

  /** The instrumented members, one per own key of `instrumentations`. */
  datatype Method =
    | HasMethod | GetMethod | ForEachMethod | SetMethod | AddMethod | DeleteMethod | ClearMethod
    | KeysMethod | ValuesMethod | EntriesMethod | IteratorMethod | SizeGetter

  /** Whether the prototype of a collection of this shape has the built-in member. */
  predicate OnPrototype(shape: Shape, m: Method)
  {
    match shape
    case MapShape(false) => m != AddMethod
    case SetShape(false) => m != GetMethod && m != SetMethod
    case MapShape(true) => m in {HasMethod, GetMethod, SetMethod, DeleteMethod}
    case SetShape(true) => m in {HasMethod, AddMethod, DeleteMethod}
    case PlainShape => false
  }

  /** The property key of each instrumented member. */
  function MethodKey(m: Method): Value
  {
    match m
    case HasMethod => Str("has")
    case GetMethod => Str("get")
    case ForEachMethod => Str("forEach")
    case SetMethod => Str("set")
    case AddMethod => Str("add")
    case DeleteMethod => Str("delete")
    case ClearMethod => Str("clear")
    case KeysMethod => Str("keys")
    case ValuesMethod => Str("values")
    case EntriesMethod => Str("entries")
    case IteratorMethod => Base.SYMBOL_ITERATOR
    case SizeGetter => Str("size")
  }

  /** `hasOwnProperty.call(instrumentations, key)`: the member a key names, if any. */
  function Route(key: Value): (r: Option<Method>)
    ensures r.Some? ==> MethodKey(r.value) == key
  {
    if key == Str("has") then Some(HasMethod)
    else if key == Str("get") then Some(GetMethod)
    else if key == Str("forEach") then Some(ForEachMethod)
    else if key == Str("set") then Some(SetMethod)
    else if key == Str("add") then Some(AddMethod)
    else if key == Str("delete") then Some(DeleteMethod)
    else if key == Str("clear") then Some(ClearMethod)
    else if key == Str("keys") then Some(KeysMethod)
    else if key == Str("values") then Some(ValuesMethod)
    else if key == Str("entries") then Some(EntriesMethod)
    else if key == Base.SYMBOL_ITERATOR then Some(IteratorMethod)
    else if key == Str("size") then Some(SizeGetter)
    else None
  }

  /** Routing finds exactly the twelve instrumented keys: each member's key routes to it, and no other key routes. */
  lemma RouteExact()
    ensures forall m :: Route(MethodKey(m)) == Some(m)
    ensures forall key :: Route(key).Some? <==> exists m :: MethodKey(m) == key
  {
    forall key | exists m :: MethodKey(m) == key
      ensures Route(key).Some?
    {
      var m :| MethodKey(m) == key;
      assert Route(MethodKey(m)) == Some(m);
    }
  }

  /** What `collectionHandlers.get` hands back: an instrumented member, or the target's own property. */
  datatype Routed = Instrumented(m: Method) | TargetProperty(v: Value)

  /** `collectionHandlers.get`: instrumented keys go to `instrumentations`, the rest to the target. */
  function CollectionGet(heap: Heap, target: ObjId, key: Value): (r: Routed)
    reads heap
    ensures r.Instrumented? <==> Route(key).Some?
    ensures r.Instrumented? ==> MethodKey(r.m) == key
    ensures r.TargetProperty? ==> r.v == Lookup(heap.Props(target), key)
  {
    match Route(key)
    case Some(m) => Instrumented(m)
    case None => TargetProperty(Lookup(heap.Props(target), key))
  }

  /** `rawToProxy.get(v) || v`: the existing proxy of a raw object, or the value itself. */
  function Existing(rawToProxy: map<ObjId, ObjId>, v: Value): Value
  {
    if v.Ref? && v.id in rawToProxy then Ref(rawToProxy[v.id]) else v
  }

  /** A value whose `Existing` can no longer change: a primitive, a wrapped raw object, or a proxy. */
  predicate Settled(reg: Registry, v: Value)
    reads reg
  {
    !v.Ref? || v.id in reg.rawToProxy || v.id in reg.proxyToRaw
  }

  /**
   * Once a value is settled, a registry that only grows (and stays valid)
   * keeps its `Existing` value and keeps it settled.
   */
  lemma ExistingStable(r2p: map<ObjId, ObjId>, p2r: map<ObjId, ObjId>, r2p': map<ObjId, ObjId>, p2r': map<ObjId, ObjId>, v: Value)
    requires forall x <- r2p :: x in r2p' && r2p'[x] == r2p[x]
    requires forall x <- p2r :: x in p2r'
    requires r2p'.Keys !! p2r'.Keys
    requires !v.Ref? || v.id in r2p || v.id in p2r
    ensures Existing(r2p', v) == Existing(r2p, v)
    ensures !v.Ref? || v.id in r2p' || v.id in p2r'
  {
    if v.Ref? && v.id in p2r {
      assert v.id !in r2p';
    }
  }

  /** The state a collection method works on, and the registry only ever growing. */
  twostate predicate Grows(reg: Registry, store: Store)
    reads reg, store
  {
    && Grown(reg)
    && store.known == old(store.known)
  }

  /**
   * `findReactive`: with no running reaction nothing is created and the
   * existing proxy, or the value itself, comes back; with a running reaction
   * an object comes back as its proxy, made now if there was none, and `null`
   * (an object to `isObject`) makes `reactive` throw. Either way a normal
   * result is `rawToProxy.get(v) || v` in the final registry.
   */
  method FindReactive(reg: Registry, store: Store, stack: ReactionStack, heap: Heap, v: Value)
    returns (c: Completion)
    requires reg.Valid() && store.Valid() && Aligned(reg, store)
    modifies reg, store`connections
    ensures reg.Valid() && store.Valid() && Aligned(reg, store) && Grows(reg, store)
    ensures store.Cleaners() == old(store.Cleaners())
    ensures forall t: ObjId, k :: store.Bucket(t, k) == old(store.Bucket(t, k))
    ensures c.Abrupt? <==> stack.HasRunningReaction() && v == Null
    ensures c.Abrupt? ==> c == Abrupt(TypeError)
    ensures !c.Abrupt? ==> c == Normal(Existing(reg.rawToProxy, v))
    ensures !stack.HasRunningReaction() ==>
              && reg.rawToProxy == old(reg.rawToProxy) && reg.proxyToRaw == old(reg.proxyToRaw)
              && store.connections == old(store.connections)
    ensures stack.HasRunningReaction() && v.Ref? ==> reg.IsProxy(c.value) && Settled(reg, v)
  {
    if stack.HasRunningReaction() && Base.IsObject(v) {
      if v.Ref? && v.id in reg.rawToProxy {
        return Normal(Ref(reg.rawToProxy[v.id]));
      }
      c := Reactive(reg, store, heap, v);
    } else {
      c := Normal(Existing(reg.rawToProxy, v));
    }
  }

  /** The value of an iterator result that `patchIterator` replaces: element `[1]` of an entry, else the whole value. */
  function Patched(it: D.IterValue): Value
  {
    match it
    case Single(v) => v
    case Entry(_, v) => v
  }

  /** An iterator result with its patched value replaced by `Existing` in the given registry. */
  function PatchOne(it: D.IterValue, rawToProxy: map<ObjId, ObjId>): D.IterValue
  {
    match it
    case Single(v) => D.Single(Existing(rawToProxy, v))
    case Entry(k, v) => D.Entry(k, Existing(rawToProxy, v))
  }

  /** The results an iterator yields, in order, and the error a `next()` threw after them, if any. */
  datatype Iteration = Iteration(items: seq<D.IterValue>, error: Option<JsError>)

  /**
   * `patchIterator`: each result that is not done is passed through
   * `findReactive` (element `[1]` of an entry, the whole value otherwise);
   * the keys of entries stay as they are. A `next()` that throws ends the
   * iteration with that error.
   */
  method PatchIterator(reg: Registry, store: Store, stack: ReactionStack, heap: Heap,
                       items: seq<D.IterValue>, isEntries: bool)
    returns (r: Iteration)
    requires reg.Valid() && store.Valid() && Aligned(reg, store)
    requires forall it <- items :: it.Entry? == isEntries
    modifies reg, store`connections
    ensures reg.Valid() && store.Valid() && Aligned(reg, store) && Grows(reg, store)
    ensures store.Cleaners() == old(store.Cleaners())
    ensures forall t: ObjId, k :: store.Bucket(t, k) == old(store.Bucket(t, k))
    ensures |r.items| <= |items|
    ensures forall j | 0 <= j < |r.items| :: r.items[j] == PatchOne(items[j], reg.rawToProxy)
    ensures r.error.None? ==> |r.items| == |items|
    ensures r.error.Some? ==>
              && r.error == Some(TypeError) && |r.items| < |items|
              && stack.HasRunningReaction() && Patched(items[|r.items|]) == Null
    ensures stack.HasRunningReaction() ==> forall j | 0 <= j < |r.items| :: Patched(items[j]) != Null
    ensures !stack.HasRunningReaction() ==>
              && r.error.None?
              && reg.rawToProxy == old(reg.rawToProxy) && reg.proxyToRaw == old(reg.proxyToRaw)
              && store.connections == old(store.connections)
  {
    var patched: seq<D.IterValue> := [];
    var i := 0;
    while i < |items|
      invariant 0 <= i <= |items| && |patched| == i
      invariant reg.Valid() && store.Valid() && Aligned(reg, store) && Grows(reg, store)
      invariant store.Cleaners() == old(store.Cleaners())
      invariant forall t: ObjId, k :: store.Bucket(t, k) == old(store.Bucket(t, k))
      invariant forall j | 0 <= j < i :: patched[j] == PatchOne(items[j], reg.rawToProxy)
      invariant stack.HasRunningReaction() ==> forall j | 0 <= j < i :: Settled(reg, Patched(items[j])) && Patched(items[j]) != Null
      invariant !stack.HasRunningReaction() ==>
                  && reg.rawToProxy == old(reg.rawToProxy) && reg.proxyToRaw == old(reg.proxyToRaw)
                  && store.connections == old(store.connections)
    {
      ghost var r2p, p2r := reg.rawToProxy, reg.proxyToRaw;
      var c := FindReactive(reg, store, stack, heap, Patched(items[i]));
      if c.Abrupt? {
        return Iteration(patched, Some(c.error));
      }
      forall j | 0 <= j < i
        ensures patched[j] == PatchOne(items[j], reg.rawToProxy)
      {
        if stack.HasRunningReaction() {
          ExistingStable(r2p, p2r, reg.rawToProxy, reg.proxyToRaw, Patched(items[j]));
        }
      }
      var next := match items[i] case Single(_) => D.Single(c.value) case Entry(k, _) => D.Entry(k, c.value);
      patched := patched + [next];
      i := i + 1;
    }
    r := Iteration(patched, None);
  }

  /** What every instrumented method needs: the handler state, and `this` being a proxy. */
  ghost predicate OnProxy(reg: Registry, store: Store, stack: ReactionStack, p: ObjId)
    reads reg, store, store.known, stack
  {
    Base.HandlerState(reg, store, stack) && p in reg.proxyToRaw
  }

  /** `has(key)`: tracked as a `has` of the key; the built-in answer comes back. */
  method Has(reg: Registry, store: Store, stack: ReactionStack, heap: Heap, p: ObjId, key: Value)
    returns (c: Completion, ghost tracked: set<Bucket>)
    requires OnProxy(reg, store, stack, p)
    modifies store`connections, stack.items`cleaners
    ensures OnProxy(reg, store, stack, p) && Tracks(stack, store, tracked)
    ensures tracked == TrackedBy(stack, Operation(HasOp, reg.proxyToRaw[p], key))
    ensures OnPrototype(ShapeOf(heap, reg.proxyToRaw[p]), HasMethod) ==>
              c == Normal(Bool(D.Has(heap.Coll(reg.proxyToRaw[p]), key)))
    ensures !OnPrototype(ShapeOf(heap, reg.proxyToRaw[p]), HasMethod) ==> c == Abrupt(TypeError)
  {
    var target := reg.proxyToRaw[p];
    tracked := RegisterRunningReaction(stack, store, Operation(HasOp, target, key));
    if OnPrototype(ShapeOf(heap, target), HasMethod) {
      c := Normal(Bool(D.Has(heap.Coll(target), key)));
    } else {
      c := Abrupt(TypeError);
    }
  }

  /** `get(key)`: tracked as a `get` of the key; the built-in result goes through `findReactive`. */
  method Get(reg: Registry, store: Store, stack: ReactionStack, heap: Heap, p: ObjId, key: Value)
    returns (c: Completion, ghost tracked: set<Bucket>)
    requires OnProxy(reg, store, stack, p)
    modifies reg, store`connections, stack.items`cleaners
    ensures OnProxy(reg, store, stack, p) && Tracks(stack, store, tracked) && Grows(reg, store)
    ensures tracked == TrackedBy(stack, Operation(GetOp, old(reg.proxyToRaw)[p], key))
    ensures !OnPrototype(ShapeOf(heap, old(reg.proxyToRaw)[p]), GetMethod) ==> c == Abrupt(TypeError)
    ensures OnPrototype(ShapeOf(heap, old(reg.proxyToRaw)[p]), GetMethod) ==>
              var value := D.Get(heap.Coll(old(reg.proxyToRaw)[p]), key);
              && (c.Abrupt? <==> stack.HasRunningReaction() && value == Null)
              && (!c.Abrupt? ==> c == Normal(Existing(reg.rawToProxy, value)))
              && (stack.HasRunningReaction() && value.Ref? ==> reg.IsProxy(c.value))
  {
    var target := reg.proxyToRaw[p];
    tracked := RegisterRunningReaction(stack, store, Operation(GetOp, target, key));
    if OnPrototype(ShapeOf(heap, target), GetMethod) {
      c := FindReactive(reg, store, stack, heap, D.Get(heap.Coll(target), key));
    } else {
      c := Abrupt(TypeError);
    }
  }

  /** What an iterating member hands back: an iterator, or the TypeError of a missing built-in. */
  datatype IterOutcome = Iterator(it: Iteration) | IterThrow(error: JsError)

  /**
   * `forEach(cb)`: tracked as an iteration; the callback is given, for each
   * entry in order, the value passed through `findReactive` and the key,
   * which is the iteration `PatchIterator` makes of the entries. The
   * callback's third argument, the raw collection, is not recorded.
   */
  method ForEach(reg: Registry, store: Store, stack: ReactionStack, heap: Heap, p: ObjId)
    returns (r: IterOutcome, ghost tracked: set<Bucket>)
    requires OnProxy(reg, store, stack, p)
    modifies reg, store`connections, stack.items`cleaners
    ensures OnProxy(reg, store, stack, p) && Tracks(stack, store, tracked) && Grows(reg, store)
    ensures tracked == TrackedBy(stack, Operation(IterateOp, old(reg.proxyToRaw)[p], Undefined))
    ensures tracked != {} ==> tracked == {(old(reg.proxyToRaw)[p], IterationKey)}
    ensures !OnPrototype(ShapeOf(heap, old(reg.proxyToRaw)[p]), ForEachMethod) ==> r == IterThrow(TypeError)
    ensures OnPrototype(ShapeOf(heap, old(reg.proxyToRaw)[p]), ForEachMethod) ==>
              && r.Iterator?
              && |r.it.items| <= D.Size(heap.Coll(old(reg.proxyToRaw)[p]))
              && (r.it.error.None? ==> |r.it.items| == D.Size(heap.Coll(old(reg.proxyToRaw)[p])))
              && forall j | 0 <= j < |r.it.items| ::
                   r.it.items[j] == PatchOne(D.EntriesOf(heap.Coll(old(reg.proxyToRaw)[p]))[j], reg.rawToProxy)
  {
    var target := reg.proxyToRaw[p];
    tracked := RegisterRunningReaction(stack, store, Operation(IterateOp, target, Undefined));
    if OnPrototype(ShapeOf(heap, target), ForEachMethod) {
      var it := PatchIterator(reg, store, stack, heap, D.EntriesOf(heap.Coll(target)), true);
      r := Iterator(it);
    } else {
      r := IterThrow(TypeError);
    }
  }

  /** `keys()`: tracked as an iteration; the keys come back unwrapped. */
  method Keys(reg: Registry, store: Store, stack: ReactionStack, heap: Heap, p: ObjId)
    returns (r: IterOutcome, ghost tracked: set<Bucket>)
    requires OnProxy(reg, store, stack, p)
    modifies store`connections, stack.items`cleaners
    ensures OnProxy(reg, store, stack, p) && Tracks(stack, store, tracked)
    ensures tracked == TrackedBy(stack, Operation(IterateOp, reg.proxyToRaw[p], Undefined))
    ensures !OnPrototype(ShapeOf(heap, reg.proxyToRaw[p]), KeysMethod) ==> r == IterThrow(TypeError)
    ensures OnPrototype(ShapeOf(heap, reg.proxyToRaw[p]), KeysMethod) ==>
              r == Iterator(Iteration(D.KeysOf(heap.Coll(reg.proxyToRaw[p])), None))
  {
    var target := reg.proxyToRaw[p];
    tracked := RegisterRunningReaction(stack, store, Operation(IterateOp, target, Undefined));
    if OnPrototype(ShapeOf(heap, target), KeysMethod) {
      r := Iterator(Iteration(D.KeysOf(heap.Coll(target)), None));
    } else {
      r := IterThrow(TypeError);
    }
  }

  /** `values()`: tracked as an iteration; each value goes through `findReactive`. */
  method Values(reg: Registry, store: Store, stack: ReactionStack, heap: Heap, p: ObjId)
    returns (r: IterOutcome, ghost tracked: set<Bucket>)
    requires OnProxy(reg, store, stack, p)
    modifies reg, store`connections, stack.items`cleaners
    ensures OnProxy(reg, store, stack, p) && Tracks(stack, store, tracked) && Grows(reg, store)
    ensures tracked == TrackedBy(stack, Operation(IterateOp, old(reg.proxyToRaw)[p], Undefined))
    ensures !OnPrototype(ShapeOf(heap, old(reg.proxyToRaw)[p]), ValuesMethod) ==> r == IterThrow(TypeError)
    ensures OnPrototype(ShapeOf(heap, old(reg.proxyToRaw)[p]), ValuesMethod) ==>
              && r.Iterator?
              && |r.it.items| <= D.Size(heap.Coll(old(reg.proxyToRaw)[p]))
              && (r.it.error.None? ==> |r.it.items| == D.Size(heap.Coll(old(reg.proxyToRaw)[p])))
              && forall j | 0 <= j < |r.it.items| ::
                   r.it.items[j] == PatchOne(D.ValuesOf(heap.Coll(old(reg.proxyToRaw)[p]))[j], reg.rawToProxy)
  {
    var target := reg.proxyToRaw[p];
    tracked := RegisterRunningReaction(stack, store, Operation(IterateOp, target, Undefined));
    if OnPrototype(ShapeOf(heap, target), ValuesMethod) {
      var it := PatchIterator(reg, store, stack, heap, D.ValuesOf(heap.Coll(target)), false);
      r := Iterator(it);
    } else {
      r := IterThrow(TypeError);
    }
  }

  /** `entries()`: tracked as an iteration; element `[1]` of each entry goes through `findReactive`. */
  method Entries(reg: Registry, store: Store, stack: ReactionStack, heap: Heap, p: ObjId)
    returns (r: IterOutcome, ghost tracked: set<Bucket>)
    requires OnProxy(reg, store, stack, p)
    modifies reg, store`connections, stack.items`cleaners
    ensures OnProxy(reg, store, stack, p) && Tracks(stack, store, tracked) && Grows(reg, store)
    ensures tracked == TrackedBy(stack, Operation(IterateOp, old(reg.proxyToRaw)[p], Undefined))
    ensures !OnPrototype(ShapeOf(heap, old(reg.proxyToRaw)[p]), EntriesMethod) ==> r == IterThrow(TypeError)
    ensures OnPrototype(ShapeOf(heap, old(reg.proxyToRaw)[p]), EntriesMethod) ==>
              && r.Iterator?
              && |r.it.items| <= D.Size(heap.Coll(old(reg.proxyToRaw)[p]))
              && (r.it.error.None? ==> |r.it.items| == D.Size(heap.Coll(old(reg.proxyToRaw)[p])))
              && forall j | 0 <= j < |r.it.items| ::
                   r.it.items[j] == PatchOne(D.EntriesOf(heap.Coll(old(reg.proxyToRaw)[p]))[j], reg.rawToProxy)
  {
    var target := reg.proxyToRaw[p];
    tracked := RegisterRunningReaction(stack, store, Operation(IterateOp, target, Undefined));
    if OnPrototype(ShapeOf(heap, target), EntriesMethod) {
      var it := PatchIterator(reg, store, stack, heap, D.EntriesOf(heap.Coll(target)), true);
      r := Iterator(it);
    } else {
      r := IterThrow(TypeError);
    }
  }

  /**
   * `[Symbol.iterator]()`: tracked as an iteration; a Map iterates its
   * entries (patched as entries), a Set its values.
   */
  method Iterate(reg: Registry, store: Store, stack: ReactionStack, heap: Heap, p: ObjId)
    returns (r: IterOutcome, ghost tracked: set<Bucket>)
    requires OnProxy(reg, store, stack, p)
    modifies reg, store`connections, stack.items`cleaners
    ensures OnProxy(reg, store, stack, p) && Tracks(stack, store, tracked) && Grows(reg, store)
    ensures tracked == TrackedBy(stack, Operation(IterateOp, old(reg.proxyToRaw)[p], Undefined))
    ensures !OnPrototype(ShapeOf(heap, old(reg.proxyToRaw)[p]), IteratorMethod) ==> r == IterThrow(TypeError)
    ensures OnPrototype(ShapeOf(heap, old(reg.proxyToRaw)[p]), IteratorMethod) ==>
              var c := heap.Coll(old(reg.proxyToRaw)[p]);
              var raw := if ShapeOf(heap, old(reg.proxyToRaw)[p]).MapShape? then D.EntriesOf(c) else D.ValuesOf(c);
              && r.Iterator? && |r.it.items| <= D.Size(c)
              && (r.it.error.None? ==> |r.it.items| == D.Size(c))
              && forall j | 0 <= j < |r.it.items| :: r.it.items[j] == PatchOne(raw[j], reg.rawToProxy)
  {
    var target := reg.proxyToRaw[p];
    tracked := RegisterRunningReaction(stack, store, Operation(IterateOp, target, Undefined));
    var shape := ShapeOf(heap, target);
    if OnPrototype(shape, IteratorMethod) {
      var isMap := shape.MapShape?;
      var it := PatchIterator(reg, store, stack, heap,
                              if isMap then D.EntriesOf(heap.Coll(target)) else D.ValuesOf(heap.Coll(target)), isMap);
      r := Iterator(it);
    } else {
      r := IterThrow(TypeError);
    }
  }

  /** Whether the prototype has a `size` getter: those of Map and Set, which throw on any other receiver. */
  predicate HasSizeGetter(heap: Heap, id: ObjId)
    reads heap
  {
    id in heap.objects && (heap.objects[id].ctor == MapCtor || heap.objects[id].ctor == SetCtor)
  }

  /**
   * `size`: tracked as an iteration; the built-in count; a TypeError when
   * the prototype's `size` getter meets an object without matching data;
   * `undefined` where the prototype has no `size`.
   */
  method Size(reg: Registry, store: Store, stack: ReactionStack, heap: Heap, p: ObjId)
    returns (c: Completion, ghost tracked: set<Bucket>)
    requires OnProxy(reg, store, stack, p)
    modifies store`connections, stack.items`cleaners
    ensures OnProxy(reg, store, stack, p) && Tracks(stack, store, tracked)
    ensures tracked == TrackedBy(stack, Operation(IterateOp, reg.proxyToRaw[p], Undefined))
    ensures OnPrototype(ShapeOf(heap, reg.proxyToRaw[p]), SizeGetter) ==>
              c == Normal(Num(D.Size(heap.Coll(reg.proxyToRaw[p]))))
    ensures !OnPrototype(ShapeOf(heap, reg.proxyToRaw[p]), SizeGetter) && HasSizeGetter(heap, reg.proxyToRaw[p]) ==>
              c == Abrupt(TypeError)
    ensures !OnPrototype(ShapeOf(heap, reg.proxyToRaw[p]), SizeGetter) && !HasSizeGetter(heap, reg.proxyToRaw[p]) ==>
              c == Normal(Undefined)
  {
    var target := reg.proxyToRaw[p];
    tracked := RegisterRunningReaction(stack, store, Operation(IterateOp, target, Undefined));
    if OnPrototype(ShapeOf(heap, target), SizeGetter) {
      c := Normal(Num(D.Size(heap.Coll(target))));
    } else if HasSizeGetter(heap, target) {
      c := Abrupt(TypeError);
    } else {
      c := Normal(Undefined);
    }
  }

  /** The heap is as it was, except for the collection data of `target`. */
  twostate predicate OnlyCollectionOf(heap: Heap, target: ObjId)
    reads heap
  {
    && (forall o :: heap.Props(o) == old(heap.Props(o)) && heap.IsArray(o) == old(heap.IsArray(o)))
    && (forall o :: o != target ==> heap.Coll(o) == old(heap.Coll(o)))
  }

  /** A WeakMap or WeakSet holds objects only: the built-in `set` and `add` throw a TypeError for any other key. */
  predicate RefusesKey(shape: Shape, key: Value)
  {
    match shape
    case MapShape(weak) => weak && !key.Ref?
    case SetShape(weak) => weak && !key.Ref?
    case PlainShape => false
  }

  /**
   * `set(key, value)`: with `hadKey` and the old value read first, the
   * entry is stored (the value as given, proxy or not) and the target comes
   * back; a new key reports `add`, a changed value (`!==`) `set`, an equal
   * value nothing. A prototype without `has`, `get` or `set`, or a WeakMap
   * given a primitive key, throws before anything changes or is reported.
   */
  method Set(reg: Registry, heap: Heap, p: ObjId, key: Value, value: Value)
    returns (c: Completion, trigger: Option<Operation>)
    requires reg.Valid() && p in reg.proxyToRaw
    modifies heap
    ensures OnlyCollectionOf(heap, reg.proxyToRaw[p])
    ensures var target := reg.proxyToRaw[p];
            var shape := old(ShapeOf(heap, target));
            var before := old(heap.Coll(target));
            if OnPrototype(shape, HasMethod) && OnPrototype(shape, GetMethod) && OnPrototype(shape, SetMethod)
               && !RefusesKey(shape, key) then
              && c == Normal(Ref(target))
              && heap.Coll(target) == D.Put(before, key, value)
              && (!D.Has(before, key) ==> trigger == Some(Operation(AddOp, target, key)))
              && (D.Has(before, key) && value != D.Get(before, key) ==> trigger == Some(Operation(SetOp, target, key)))
              && (D.Has(before, key) && value == D.Get(before, key) ==> trigger == None)
            else
              c == Abrupt(TypeError) && trigger == None && heap.objects == old(heap.objects)
  {
    var target := reg.proxyToRaw[p];
    var shape := ShapeOf(heap, target);
    if !(OnPrototype(shape, HasMethod) && OnPrototype(shape, GetMethod) && OnPrototype(shape, SetMethod)) {
      return Abrupt(TypeError), None;
    }
    if RefusesKey(shape, key) {
      return Abrupt(TypeError), None;
    }
    var before := heap.Coll(target);
    var hadKey := D.Has(before, key);
    var oldValue := D.Get(before, key);
    heap.SetColl(target, D.Put(before, key, value));
    c := Normal(Ref(target));
    if !hadKey {
      trigger := Some(Operation(AddOp, target, key));
    } else if value != oldValue {
      trigger := Some(Operation(SetOp, target, key));
    } else {
      trigger := None;
    }
  }

  /**
   * `add(elem)`: the element is added and the target comes back; only a new
   * element reports `add`. A prototype without `has` or `add`, or a WeakSet
   * given a primitive, throws before anything changes or is reported.
   */
  method Add(reg: Registry, heap: Heap, p: ObjId, elem: Value)
    returns (c: Completion, trigger: Option<Operation>)
    requires reg.Valid() && p in reg.proxyToRaw
    modifies heap
    ensures OnlyCollectionOf(heap, reg.proxyToRaw[p])
    ensures var target := reg.proxyToRaw[p];
            var shape := old(ShapeOf(heap, target));
            var before := old(heap.Coll(target));
            if OnPrototype(shape, HasMethod) && OnPrototype(shape, AddMethod) && !RefusesKey(shape, elem) then
              && c == Normal(Ref(target))
              && heap.Coll(target) == D.Add(before, elem)
              && (!D.Has(before, elem) ==> trigger == Some(Operation(AddOp, target, elem)))
              && (D.Has(before, elem) ==> trigger == None)
            else
              c == Abrupt(TypeError) && trigger == None && heap.objects == old(heap.objects)
  {
    var target := reg.proxyToRaw[p];
    var shape := ShapeOf(heap, target);
    if !(OnPrototype(shape, HasMethod) && OnPrototype(shape, AddMethod)) || RefusesKey(shape, elem) {
      return Abrupt(TypeError), None;
    }
    var before := heap.Coll(target);
    var hadKey := D.Has(before, elem);
    heap.SetColl(target, D.Add(before, elem));
    c := Normal(Ref(target));
    trigger := if hadKey then None else Some(Operation(AddOp, target, elem));
  }

  /** `delete(key)`: the built-in result (whether the key was there) comes back; only a present key reports `delete`. */
  method Delete(reg: Registry, heap: Heap, p: ObjId, key: Value)
    returns (c: Completion, trigger: Option<Operation>)
    requires reg.Valid() && p in reg.proxyToRaw
    modifies heap
    ensures OnlyCollectionOf(heap, reg.proxyToRaw[p])
    ensures var target := reg.proxyToRaw[p];
            var shape := old(ShapeOf(heap, target));
            var before := old(heap.Coll(target));
            if OnPrototype(shape, HasMethod) && OnPrototype(shape, DeleteMethod) then
              && c == Normal(Bool(D.Has(before, key)))
              && heap.Coll(target) == D.Delete(before, key)
              && (D.Has(before, key) ==> trigger == Some(Operation(DeleteOp, target, key)))
              && (!D.Has(before, key) ==> trigger == None)
            else
              c == Abrupt(TypeError) && trigger == None && heap.objects == old(heap.objects)
  {
    var target := reg.proxyToRaw[p];
    var shape := ShapeOf(heap, target);
    if !(OnPrototype(shape, HasMethod) && OnPrototype(shape, DeleteMethod)) {
      return Abrupt(TypeError), None;
    }
    var before := heap.Coll(target);
    var hadKey := D.Has(before, key);
    heap.SetColl(target, D.Delete(before, key));
    c := Normal(Bool(hadKey));
    trigger := if hadKey then Some(Operation(DeleteOp, target, key)) else None;
  }

  /** `clear()`: the collection is emptied; only a collection that had members reports `clear`. */
  method Clear(reg: Registry, heap: Heap, p: ObjId)
    returns (c: Completion, trigger: Option<Operation>)
    requires reg.Valid() && p in reg.proxyToRaw
    modifies heap
    ensures OnlyCollectionOf(heap, reg.proxyToRaw[p])
    ensures var target := reg.proxyToRaw[p];
            var before := old(heap.Coll(target));
            if OnPrototype(old(ShapeOf(heap, target)), ClearMethod) then
              && c == Normal(Undefined)
              && heap.Coll(target) == D.Clear(before)
              && (D.Size(before) != 0 ==> trigger == Some(Operation(ClearOp, target, Undefined)))
              && (D.Size(before) == 0 ==> trigger == None)
            else
              c == Abrupt(TypeError) && trigger == None && heap.objects == old(heap.objects)
  {
    var target := reg.proxyToRaw[p];
    if !OnPrototype(ShapeOf(heap, target), ClearMethod) {
      return Abrupt(TypeError), None;
    }
    var before := heap.Coll(target);
    var hadItems := D.Size(before) != 0;
    heap.SetColl(target, D.Clear(before));
    c := Normal(Undefined);
    trigger := if hadItems then Some(Operation(ClearOp, target, Undefined)) else None;
  }
}

=== FILE: execution.dfy ===
/**
 * Running reactions (reaction.ts: `runReactionWrap`,
 * `queueReactionsForOperation`), calling a reaction function (the closure
 * `observe` builds), and the observer bodies themselves: finite scripts
 * whose property reads and writes on proxies go through the `get` and `set`
 * traps, and whose writes queue the reactions they trigger.
 *
 * Re-triggering is unbounded recursion in the source; here every reaction
 * invocation made by a queue or by a reaction function costs one unit of
 * fuel, and a run that needs more ends with `OutOfFuel`.
 */
module Execution {
  import opened Types
  import opened JsHeap
  import opened Store
  import opened ReactionStack
  import opened Proxies
  import opened BaseHandlers

  /**
   * The running reactions: known, each at most once, and none of them cancelled.
   */
  ghost predicate StackValid(items: seq<Reaction>, store: Store)
    reads store, store.known
  {
    && (forall q <- items :: q in store.known)
    && NoDuplicates(items)
    && (forall q <- items :: !q.unobserved)
  }

  /** A cancelled reaction is subscribed to nothing. */
  ghost predicate CancelledReleased(store: Store)
    reads store, store.known
  {
    forall q <- store.known :: q.unobserved ==> q.cleaners == []
  }

  /** Every reaction function that a known reaction wraps is itself known. */
  ghost predicate WrapsKnown(store: Store)
    reads store
  {
    forall q <- store.known :: q.fn.ReactionFunction? ==> q.fn.reaction in store.known
  }

  /**
   * The state every run starts from and returns to: the registry and the
   * store are consistent and aligned, the stack is valid, cancelled
   * reactions are released, and wrapped reactions are known.
   */
  ghost predicate Valid(reg: Registry, store: Store, stack: ReactionStack)
    reads reg, store, store.known, stack
  {
    && reg.Valid() && store.Valid() && Aligned(reg, store)
    && StackValid(stack.items, store)
    && CancelledReleased(store)
    && WrapsKnown(store)
  }

  /** Pushing a known, observed reaction that is not running keeps the stack valid. */
  lemma PushKeepsStackValid(items: seq<Reaction>, store: Store, r: Reaction)
    requires StackValid(items, store) && r in store.known && !r.unobserved && r !in items
    ensures StackValid(items + [r], store)
  {
    var pushed := items + [r];
    forall i, j | 0 <= i < j < |pushed|
      ensures pushed[i] != pushed[j]
    {
      if j == |items| {
        assert pushed[i] in items;
      }
    }
  }

  /** Popping keeps the stack valid. */
  lemma PopKeepsStackValid(items: seq<Reaction>, store: Store)
    requires StackValid(items, store) && items != []
    ensures StackValid(items[..|items| - 1], store)
  {
    var popped := items[..|items| - 1];
    forall q | q in popped
      ensures q in items
    {
    }
  }

  /**
   * What a run did to the state outside it: the registry only grew, the
   * stack is back as it was, the reactions below the top kept their
   * cleaners, and the running reaction (the top) had the buckets in `added`
   * appended to its cleaners. Reactions that are not on the stack may have
   * been run meanwhile.
   */
  twostate predicate Evolves(reg: Registry, stack: ReactionStack, store: Store, new added: seq<Bucket>)
    reads reg, stack, stack.items, store
  {
    && Grown(reg)
    && store.known == old(store.known)
    && stack.items == old(stack.items)
    && (stack.items == [] ==> added == [])
    && (forall i | 0 <= i < |stack.items| - 1 :: stack.items[i].cleaners == old(stack.items[i].cleaners))
    && (stack.items != [] ==>
          stack.items[|stack.items| - 1].cleaners == old(stack.items[|stack.items| - 1].cleaners) + added)
  }

  /**
   * One step an observer body performed: a read of `obj[key]`, with the raw
   * object behind `obj` if `obj` was a proxy at that moment, the value the
   * read found there (`undefined` when it read no object), and how the read
   * completed; or a write of `obj[key] = value` and how it completed.
   */
  datatype Step =
    | ReadStep(obj: Value, key: Value, raw: Option<ObjId>, seen: Value, result: Completion)
    | WriteStep(obj: Value, key: Value, value: Value, result: Completion)

  /**
   * Body `s`, started in `env`, performs exactly the steps of `log` and
   * completes with `c`: each step is the read or write the body does next, a
   * read goes on with the value read bound, a write goes on after it
   * completes normally, a step that does not complete normally ends the body
   * with its completion, and `Return` and `Raise` end it with their operand.
   */
  predicate Runs(s: Script, env: seq<Value>, log: seq<Step>, c: Completion)
    decreases s
  {
    match s
    case Return(result) => log == [] && c == Normal(Eval(result, env))
    case Raise(error) => log == [] && c == Abrupt(Thrown(Eval(error, env)))
    case Read(obj, key, next) =>
      && log != [] && log[0].ReadStep? && log[0].obj == Eval(obj, env) && log[0].key == Eval(key, env)
      && if log[0].result.Normal? then Runs(next, env + [log[0].result.value], log[1..], c)
         else log[1..] == [] && c == log[0].result
    case Write(obj, key, value, next) =>
      && log != [] && log[0].WriteStep?
      && log[0].obj == Eval(obj, env) && log[0].key == Eval(key, env) && log[0].value == Eval(value, env)
      && if log[0].result.Normal? then Runs(next, env, log[1..], c)
         else log[1..] == [] && c == log[0].result
    case Branch(cond, onTrue, onFalse) =>
      Runs(if Truthy(Eval(cond, env)) then onTrue else onFalse, env, log, c)
  }

  /** The bucket a step subscribes the running reaction to: a read through a proxy, unless of a well-known symbol. */
  function StepBuckets(st: Step): set<Bucket>
  {
    if st.ReadStep? && st.raw.Some? && !IsWellKnownSymbol(st.key) then {(st.raw.value, KeyOf(st.key))} else {}
  }

  /** The buckets the reads of `log` subscribe the running reaction to. */
  function SubscribedBy(log: seq<Step>): set<Bucket>
  {
    if log == [] then {} else StepBuckets(log[0]) + SubscribedBy(log[1..])
  }

  /**
   * The reads of `log` saw the registry: a value that was a proxy when the
   * run began was one when it was read, and the raw object a read recorded
   * is the one behind the value read, as it still is when the run ends.
   */
  twostate predicate ReadsSeen(reg: Registry, new log: seq<Step>)
    reads reg
  {
    Saw(old(reg.proxyToRaw), reg.proxyToRaw, log)
  }

  /**
   * `ReadsSeen` over the proxy-to-raw map as it was at the start (`before`)
   * and at the end (`after`); each read also completed as `Gave` says.
   */
  predicate Saw(before: map<ObjId, ObjId>, after: map<ObjId, ObjId>, log: seq<Step>)
  {
    forall st <- log | st.ReadStep? ::
      && (st.obj.Ref? && st.obj.id in before ==> st.raw.Some?)
      && (st.raw.Some? ==> st.obj.Ref? && st.obj.id in after && after[st.obj.id] == st.raw.value)
      && Gave(after, st)
  }

  /**
   * What the `get` trap gives for the value `v` it found, under a key that
   * is not a well-known symbol: a primitive as it is, a TypeError for
   * `null` (`reactive(null)`), and for an object a proxy: `v` itself when
   * it is a proxy, else one whose raw object is `v` (`after` being the
   * proxy-to-raw map as it is when the run ends, which only grows).
   */
  predicate Wrapped(after: map<ObjId, ObjId>, v: Value, c: Completion)
  {
    && (!IsObject(v) ==> c == Normal(v))
    && (v == Null ==> c == Abrupt(TypeError))
    && (v.Ref? ==> c.Normal? && c.value.Ref? && c.value.id in after && (c.value == v || after[c.value.id] == v.id))
  }

  /**
   * A read completed as the value it found dictates: through a proxy, the
   * value itself under a well-known symbol key and the wrapped value under
   * any other; on a raw object, the value itself; on `undefined` or `null`
   * a TypeError; on another primitive `undefined`.
   */
  predicate Gave(after: map<ObjId, ObjId>, st: Step)
    requires st.ReadStep?
  {
    if st.raw.Some? then
      if IsWellKnownSymbol(st.key) then st.result == Normal(st.seen) else Wrapped(after, st.seen, st.result)
    else if st.obj.Ref? then st.result == Normal(st.seen)
    else if st.obj == Undefined || st.obj == Null then st.result == Abrupt(TypeError)
    else st.result == Normal(Undefined)
  }

  /** A proxy-to-raw map that only grew keeps every completion `Gave` accepted. */
  lemma GaveExtends(mid: map<ObjId, ObjId>, after: map<ObjId, ObjId>, st: Step)
    requires st.ReadStep? && Extends(mid, after) && Gave(mid, st)
    ensures Gave(after, st)
  {
    if st.raw.Some? && !IsWellKnownSymbol(st.key) && st.seen.Ref? {
      assert st.result.value.id in mid;
    }
  }

  /**
   * The value a read of `key` finds among `objects`: the own property of the
   * raw object behind a proxy, or of the object read; `undefined` when no
   * object is read.
   */
  function Found(objects: map<ObjId, RawObject>, obj: Value, raw: Option<ObjId>, key: Value): Value
  {
    if raw.Some? then Lookup(PropsIn(objects, raw.value), key)
    else if obj.Ref? then Lookup(PropsIn(objects, obj.id), key)
    else Undefined
  }

  /**
   * The reads of `log` before its first write found what `objects` holds:
   * reads change no object, so up to the first write every read sees the
   * heap the run started from.
   */
  predicate FoundIn(objects: map<ObjId, RawObject>, log: seq<Step>)
  {
    log == [] || log[0].WriteStep?
    || (log[0].seen == Found(objects, log[0].obj, log[0].raw, log[0].key) && FoundIn(objects, log[1..]))
  }

  /** A read that found what `objects` holds, followed by steps whose reads up to a write did, is such a log. */
  lemma FoundCons(objects: map<ObjId, RawObject>, first: Step, rest: seq<Step>)
    requires first.ReadStep? && first.seen == Found(objects, first.obj, first.raw, first.key)
    requires FoundIn(objects, rest)
    ensures FoundIn(objects, [first] + rest)
  {
    assert ([first] + rest)[1..] == rest;
  }

  /** A single step is seen when, if it is a read, it saw the registry and completed as `Gave` says. */
  lemma SawOne(before: map<ObjId, ObjId>, after: map<ObjId, ObjId>, st: Step)
    requires st.ReadStep? ==> st.obj.Ref? && st.obj.id in before ==> st.raw.Some?
    requires st.ReadStep? && st.raw.Some? ==> st.obj.Ref? && st.obj.id in after && after[st.obj.id] == st.raw.value
    requires st.ReadStep? ==> Gave(after, st)
    ensures Saw(before, after, [st])
  {
    forall x <- [st] | x.ReadStep?
      ensures x.obj.Ref? && x.obj.id in before ==> x.raw.Some?
    {
      assert x == st;
    }
  }

  /** A step seen between `before` and `mid`, followed by steps seen between `mid` and `after`, are seen between `before` and `after`. */
  lemma SawCons(before: map<ObjId, ObjId>, mid: map<ObjId, ObjId>, after: map<ObjId, ObjId>, first: Step, rest: seq<Step>)
    requires Extends(before, mid) && Extends(mid, after)
    requires Saw(before, mid, [first]) && Saw(mid, after, rest)
    ensures Saw(before, after, [first] + rest)
  {
    forall st <- [first] + rest | st.ReadStep?
      ensures st.obj.Ref? && st.obj.id in before ==> st.raw.Some?
      ensures st.raw.Some? ==> st.obj.Ref? && st.obj.id in after && after[st.obj.id] == st.raw.value
      ensures Gave(after, st)
    {
      if st !in rest {
        assert st in [first];
        GaveExtends(mid, after, st);
      }
    }
  }

  /** Steps seen over a run are seen over any longer stretch: a smaller registry before, a larger one after. */
  lemma SawWider(before: map<ObjId, ObjId>, b: map<ObjId, ObjId>, a: map<ObjId, ObjId>, after: map<ObjId, ObjId>,
                 log: seq<Step>)
    requires Extends(before, b) && Extends(a, after) && Saw(b, a, log)
    ensures Saw(before, after, log)
  {
    forall st <- log | st.ReadStep?
      ensures st.obj.Ref? && st.obj.id in before ==> st.raw.Some?
      ensures st.raw.Some? ==> st.obj.Ref? && st.obj.id in after && after[st.obj.id] == st.raw.value
      ensures Gave(after, st)
    {
      GaveExtends(a, after, st);
    }
  }

  /** A read step followed by the steps of the rest of the body is a run of the `Read` script. */
  lemma RunsRead(s: Script, env: seq<Value>, first: Step, rest: seq<Step>, c: Completion)
    requires s.Read? && first.ReadStep? && first.obj == Eval(s.obj, env) && first.key == Eval(s.key, env)
    requires first.result.Normal? ==> Runs(s.next, env + [first.result.value], rest, c)
    requires !first.result.Normal? ==> rest == [] && c == first.result
    ensures Runs(s, env, [first] + rest, c)
  {
    assert ([first] + rest)[1..] == rest;
  }

  /** A write step followed by the steps of the rest of the body is a run of the `Write` script. */
  lemma RunsWrite(s: Script, env: seq<Value>, first: Step, rest: seq<Step>, c: Completion)
    requires s.Write? && first.WriteStep? && first.obj == Eval(s.obj, env) && first.key == Eval(s.key, env)
    requires first.value == Eval(s.value, env)
    requires first.result.Normal? ==> Runs(s.next, env, rest, c)
    requires !first.result.Normal? ==> rest == [] && c == first.result
    ensures Runs(s, env, [first] + rest, c)
  {
    assert ([first] + rest)[1..] == rest;
  }

  /** Appending in two goes is appending once. */
  lemma AppendAssoc(a: seq<Bucket>, b: seq<Bucket>, c: seq<Bucket>)
    ensures a + b + c == a + (b + c)
  {
  }

  /** Gaining the buckets of one step and then those of the rest is gaining those of the whole log. */
  lemma GainsCons(before: seq<Bucket>, mid: seq<Bucket>, after: seq<Bucket>, first: Step, rest: seq<Step>)
    requires Elems(mid) == Elems(before) + StepBuckets(first)
    requires Elems(after) == Elems(mid) + SubscribedBy(rest)
    ensures Elems(after) == Elems(before) + SubscribedBy([first] + rest)
  {
    assert ([first] + rest)[1..] == rest;
  }

  /** The running reaction, if there is one, gained exactly the buckets in `subscribed`. */
  twostate predicate TopGains(stack: ReactionStack, new subscribed: set<Bucket>)
    reads stack, stack.items
  {
    stack.items != [] && stack.items == old(stack.items) ==>
      Elems(stack.items[|stack.items| - 1].cleaners) == Elems(old(stack.items[|stack.items| - 1].cleaners)) + subscribed
  }

  /** Which way `runReactionWrap` went. */
  datatype Path = Bare | Skipped | Tracked

  /** One reaction a queue invoked: which way its run went, the steps of that run, and how it completed. */
  datatype Invocation = Invocation(reaction: Reaction, path: Path, log: seq<Step>, result: Completion)

  /**
   * How an observed reaction invoked while `running` were on the stack ran:
   * skipped with `undefined` and no steps exactly when it was itself running,
   * otherwise tracked, its function's body performing the steps of the log;
   * the reads of the log saw the registry between `before` and `after`.
   */
  predicate Ran(running: seq<Reaction>, before: map<ObjId, ObjId>, after: map<ObjId, ObjId>, inv: Invocation)
  {
    && (inv.path == Skipped <==> inv.reaction in running)
    && (inv.path == Skipped || inv.path == Tracked)
    && (inv.path == Skipped ==> inv.result == Normal(Undefined) && inv.log == [])
    && (inv.path == Tracked && inv.reaction.fn.UserFunction? ==> Runs(inv.reaction.fn.body, [], inv.log, inv.result))
    && Saw(before, after, inv.log)
  }

  /**
   * The run a reaction function delegated to: the call completes as the run
   * of its reaction `q`, which `Ran` describes with `running` on the stack.
   */
  predicate Delegated(q: Reaction, running: seq<Reaction>, before: map<ObjId, ObjId>, after: map<ObjId, ObjId>,
                      c: Completion, inner: Option<Invocation>)
  {
    && inner.Some? && inner.value.reaction == q && inner.value.result == c
    && Ran(running, before, after, inner.value)
  }

  /**
   * The runs of a queue: one per reaction invoked, in the order invoked,
   * each as `Ran` says; every run but the last completed normally, all of
   * them did when the queue did, and otherwise the queue ends with the last
   * run's completion, or ran nothing for want of fuel.
   */
  predicate QueueRan(running: seq<Reaction>, before: map<ObjId, ObjId>, after: map<ObjId, ObjId>,
                     invoked: seq<Reaction>, runs: seq<Invocation>, c: Completion)
  {
    && |runs| == |invoked|
    && (forall i | 0 <= i < |runs| :: runs[i].reaction == invoked[i] && Ran(running, before, after, runs[i]))
    && (forall i | 0 <= i < |runs| - 1 :: runs[i].result.Normal?)
    && (c.Normal? ==> forall i | 0 <= i < |runs| :: runs[i].result.Normal?)
    && (!c.Normal? && runs != [] ==> runs[|runs| - 1].result == c)
    && (!c.Normal? && runs == [] ==> c == OutOfFuel)
  }

  /** A run seen over a stretch of the registry is seen over any longer stretch. */
  lemma RanWider(running: seq<Reaction>, before: map<ObjId, ObjId>, b: map<ObjId, ObjId>, a: map<ObjId, ObjId>,
                 after: map<ObjId, ObjId>, inv: Invocation)
    requires Extends(before, b) && Extends(a, after) && Ran(running, b, a, inv)
    ensures Ran(running, before, after, inv)
  {
    SawWider(before, b, a, after, inv.log);
  }

  /**
   * One more step of a queue that had run normally so far: the runs so far,
   * seen up to `mid`, and the next run, seen from `mid` on, are the runs of
   * a queue over the whole stretch that ends as the next run does (and
   * normally, if the next run completed normally).
   */
  lemma QueueStep(running: seq<Reaction>, before: map<ObjId, ObjId>, mid: map<ObjId, ObjId>, after: map<ObjId, ObjId>,
                  invoked: seq<Reaction>, runs: seq<Invocation>, inv: Invocation)
    requires Extends(before, mid) && Extends(mid, after)
    requires QueueRan(running, before, mid, invoked, runs, Normal(Undefined)) && Ran(running, mid, after, inv)
    ensures QueueRan(running, before, after, invoked + [inv.reaction], runs + [inv], inv.result)
    ensures inv.result.Normal? ==>
              QueueRan(running, before, after, invoked + [inv.reaction], runs + [inv], Normal(Undefined))
  {
    var runs', invoked' := runs + [inv], invoked + [inv.reaction];
    forall i | 0 <= i < |runs'|
      ensures runs'[i].reaction == invoked'[i] && Ran(running, before, after, runs'[i])
    {
      if i < |runs| {
        ExtendsTrans(before, mid, after);
        RanWider(running, before, before, mid, after, runs[i]);
      } else {
        RanWider(running, before, mid, after, after, inv);
      }
    }
    assert forall i | 0 <= i < |runs'| - 1 :: runs'[i] == runs[i];
  }

  /**
   * `runReactionWrap`: a cancelled reaction runs its function bare, so its
   * reads subscribe the reaction running outside; a reaction already on the
   * stack is skipped and gives `undefined`; any other reaction is released,
   * pushed, run and popped (`RunPushed`), and ends subscribed to exactly
   * what that run read. Either run completes as the function's body does.
   */
  method RunReactionWrap(reg: Registry, store: Store, stack: ReactionStack, heap: Heap, r: Reaction, fuel: nat)
    returns (c: Completion, ghost added: seq<Bucket>, ghost path: Path, ghost log: seq<Step>, ghost inner: Option<Invocation>)
    requires Valid(reg, store, stack) && r in store.known
    modifies reg, store`connections, stack, heap, store.known`cleaners
    ensures Valid(reg, store, stack) && Evolves(reg, stack, store, added) && ReadsSeen(reg, log)
    ensures path == Bare <==> old(r.unobserved)
    ensures path == Skipped <==> !old(r.unobserved) && old(stack.IsRunning(r))
    ensures path == Skipped ==>
              && c == Normal(Undefined) && added == [] && log == []
              && store.connections == old(store.connections) && store.Cleaners() == old(store.Cleaners())
              && reg.rawToProxy == old(reg.rawToProxy) && heap.objects == old(heap.objects)
    ensures path != Skipped && r.fn.UserFunction? ==> Runs(r.fn.body, [], log, c)
    ensures path == Bare ==> r.cleaners == [] && TopGains(stack, SubscribedBy(log))
    ensures path == Tracked ==> added == [] && Elems(r.cleaners) == SubscribedBy(log)
    ensures path == Bare && r.fn.ReactionFunction? && fuel > 0 && !old(r.fn.reaction.unobserved) ==>
              Delegated(r.fn.reaction, old(stack.items), old(reg.proxyToRaw), reg.proxyToRaw, c, inner)
    ensures path == Tracked && r.fn.ReactionFunction? && fuel > 0 && !old(r.fn.reaction.unobserved) ==>
              Delegated(r.fn.reaction, old(stack.items) + [r], old(reg.proxyToRaw), reg.proxyToRaw, c, inner)
    ensures FoundIn(old(heap.objects), log)
    decreases fuel, 6
  {
    if r.unobserved {
      c, added, log, inner := RunCallable(reg, store, stack, heap, r.fn, fuel);
      return c, added, Bare, log, inner;
    }
    if stack.IsRunning(r) {
      return Normal(Undefined), [], Skipped, [], None;
    }
    c, log, inner := RunPushed(reg, store, stack, heap, r, fuel);
    added, path := [], Tracked;
  }

  /**
   * The tracked run of `runReactionWrap`: the reaction's old subscriptions
   * are released, it is pushed, its function runs with it on top, and it is
   * popped again whether the function returned or threw. The reaction
   * running outside gains nothing, and this reaction ends subscribed to
   * exactly the buckets its run read, none of the ones it had before.
   */
  method RunPushed(reg: Registry, store: Store, stack: ReactionStack, heap: Heap, r: Reaction, fuel: nat)
    returns (c: Completion, ghost log: seq<Step>, ghost inner: Option<Invocation>)
    requires Valid(reg, store, stack) && r in store.known
    requires !r.unobserved && !stack.IsRunning(r)
    modifies reg, store`connections, stack, heap, store.known`cleaners
    ensures Valid(reg, store, stack) && Evolves(reg, stack, store, []) && ReadsSeen(reg, log)
    ensures r.fn.UserFunction? ==> Runs(r.fn.body, [], log, c)
    ensures r.fn.ReactionFunction? && fuel > 0 && !old(r.fn.reaction.unobserved) ==>
              Delegated(r.fn.reaction, old(stack.items) + [r], old(reg.proxyToRaw), reg.proxyToRaw, c, inner)
    ensures Elems(r.cleaners) == SubscribedBy(log)
    ensures FoundIn(old(heap.objects), log)
    decreases fuel, 5
  {
    store.ReleaseReaction(r);
    assert CancelledReleased(store) by {
      forall q <- store.known | q.unobserved
        ensures q.cleaners == []
      {
        assert q != r;
      }
    }
    label released:
    c, log, inner := RunOnTop(reg, store, stack, heap, r, fuel);
    forall i | 0 <= i < |stack.items|
      ensures stack.items[i].cleaners == old(stack.items[i].cleaners)
    {
      assert stack.items[i] != r;
      assert stack.items[i].cleaners == old@released(stack.items[i].cleaners);
    }
  }

  /**
   * The middle of a tracked run: the released reaction is pushed, its
   * function runs with it on top, so that every read of the run subscribes
   * this reaction, and it is popped again.
   */
  method RunOnTop(reg: Registry, store: Store, stack: ReactionStack, heap: Heap, r: Reaction, fuel: nat)
    returns (c: Completion, ghost log: seq<Step>, ghost inner: Option<Invocation>)
    requires Valid(reg, store, stack) && r in store.known
    requires !r.unobserved && !stack.IsRunning(r) && r.cleaners == []
    modifies reg, store`connections, stack, heap, store.known`cleaners
    ensures Valid(reg, store, stack) && Evolves(reg, stack, store, []) && ReadsSeen(reg, log)
    ensures r.fn.UserFunction? ==> Runs(r.fn.body, [], log, c)
    ensures r.fn.ReactionFunction? && fuel > 0 && !old(r.fn.reaction.unobserved) ==>
              Delegated(r.fn.reaction, old(stack.items) + [r], old(reg.proxyToRaw), reg.proxyToRaw, c, inner)
    ensures Elems(r.cleaners) == SubscribedBy(log)
    ensures FoundIn(old(heap.objects), log)
    decreases fuel, 4
  {
    ghost var outer := stack.items;
    PushKeepsStackValid(outer, store, r);
    stack.Push(r);
    label pushed:
    c, log, inner := RunAsTop(reg, store, stack, heap, r, fuel);
    PopKeepsStackValid(stack.items, store);
    stack.Pop();
    assert stack.items == outer;
    forall i | 0 <= i < |stack.items|
      ensures stack.items[i].cleaners == old(stack.items[i].cleaners)
    {
      assert old@pushed(stack.items)[i] == stack.items[i];
    }
    assert forall x: seq<Bucket> :: x + [] == x;
  }

  /** The function of the reaction on top of the stack runs; that reaction gains exactly the buckets the run read. */
  method RunAsTop(reg: Registry, store: Store, stack: ReactionStack, heap: Heap, r: Reaction, fuel: nat)
    returns (c: Completion, ghost log: seq<Step>, ghost inner: Option<Invocation>)
    requires Valid(reg, store, stack) && r in store.known
    requires stack.items != [] && stack.items[|stack.items| - 1] == r && r.cleaners == []
    modifies reg, store`connections, stack, heap, store.known`cleaners
    ensures Valid(reg, store, stack) && stack.items == old(stack.items) && store.known == old(store.known)
    ensures Grown(reg) && ReadsSeen(reg, log)
    ensures forall i | 0 <= i < |stack.items| - 1 :: stack.items[i].cleaners == old(stack.items[i].cleaners)
    ensures r.fn.UserFunction? ==> Runs(r.fn.body, [], log, c)
    ensures r.fn.ReactionFunction? && fuel > 0 && !old(r.fn.reaction.unobserved) ==>
              Delegated(r.fn.reaction, old(stack.items), old(reg.proxyToRaw), reg.proxyToRaw, c, inner)
    ensures Elems(r.cleaners) == SubscribedBy(log)
    ensures FoundIn(old(heap.objects), log)
    decreases fuel, 3, 1
  {
    ghost var added;
    c, added, log, inner := RunCallable(reg, store, stack, heap, r.fn, fuel);
  }

  /**
   * Calling a function: a user function runs its body; a reaction function
   * (the closure `observe` returned) delegates to `runReactionWrap` for its
   * reaction, at the cost of one unit of fuel. The running reaction gains
   * exactly the buckets of the reads made with it on top: those of the body,
   * or of a cancelled reaction's function run bare, and none when the
   * delegated reaction runs under its own tracking.
   */
  method RunCallable(reg: Registry, store: Store, stack: ReactionStack, heap: Heap, fn: Callable, fuel: nat)
    returns (c: Completion, ghost added: seq<Bucket>, ghost log: seq<Step>, ghost inner: Option<Invocation>)
    requires Valid(reg, store, stack)
    requires fn.ReactionFunction? ==> fn.reaction in store.known
    modifies reg, store`connections, stack, heap, store.known`cleaners
    ensures Valid(reg, store, stack) && Evolves(reg, stack, store, added) && ReadsSeen(reg, log)
    ensures TopGains(stack, SubscribedBy(log))
    ensures fn.UserFunction? ==> Runs(fn.body, [], log, c)
    ensures fn.ReactionFunction? && fuel == 0 ==>
              c == OutOfFuel && log == [] && store.Cleaners() == old(store.Cleaners())
    ensures fn.ReactionFunction? && !old(fn.reaction.unobserved) ==> log == [] && added == []
    ensures fn.ReactionFunction? && fuel > 0 && old(fn.reaction.unobserved) && fn.reaction.fn.UserFunction? ==>
              Runs(fn.reaction.fn.body, [], log, c)
    ensures fn.ReactionFunction? && fuel > 0 && !old(fn.reaction.unobserved) ==>
              Delegated(fn.reaction, old(stack.items), old(reg.proxyToRaw), reg.proxyToRaw, c, inner)
    ensures FoundIn(old(heap.objects), log)
    decreases fuel, 3, 0
  {
    match fn
    case UserFunction(body, _) =>
      c, added, log := ExecScript(reg, store, stack, heap, body, [], fuel);
      inner := None;
    case ReactionFunction(q) =>
      if fuel == 0 {
        return OutOfFuel, [], [], None;
      }
      if stack.items != [] {
        ghost var top := stack.items[|stack.items| - 1].cleaners;
        assert top + [] == top;
      }
      ghost var path, l, deeper;
      c, added, path, l, deeper := RunReactionWrap(reg, store, stack, heap, q, fuel - 1);
      log := if path == Bare then l else [];
      inner := if path == Bare then None else Some(Invocation(q, path, l, c));
  }

  /**
   * A property read on anything but a proxy: the own property of a raw
   * object, a TypeError on `undefined` and `null`, and `undefined` on any
   * other primitive (which has no own properties here).
   */
  function PlainRead(heap: Heap, o: Value, k: Value): (c: Completion)
    reads heap
    ensures c == Abrupt(TypeError) <==> o == Undefined || o == Null
    ensures c.Normal? || c == Abrupt(TypeError)
  {
    if o.Ref? then Normal(Lookup(heap.Props(o.id), k))
    else if o == Undefined || o == Null then Abrupt(TypeError)
    else Normal(Undefined)
  }

  /**
   * A property read `o[k]` in an observer body: on a proxy it is the `get`
   * trap on the proxy's raw object (`ReadThrough`); on a raw object it is the
   * plain own property; on `undefined` or `null` it throws; on any other
   * primitive it gives `undefined`.
   */
  method ReadProperty(reg: Registry, store: Store, stack: ReactionStack, heap: Heap, o: Value, k: Value)
    returns (c: Completion, ghost added: seq<Bucket>)
    requires Valid(reg, store, stack)
    modifies reg, store`connections, stack.items`cleaners
    ensures Valid(reg, store, stack) && Evolves(reg, stack, store, added)
    ensures c.Normal? || c == Abrupt(TypeError)
    ensures old(reg.IsProxy(o)) && !IsWellKnownSymbol(k) && stack.items != [] ==>
              stack.items[|stack.items| - 1].cleaners
                == Appended(old(stack.items[|stack.items| - 1].cleaners), (old(reg.proxyToRaw)[o.id], KeyOf(k)))
    ensures old(reg.IsProxy(o)) && IsWellKnownSymbol(k) ==>
              added == [] && c == Normal(Lookup(heap.Props(old(reg.proxyToRaw)[o.id]), k))
    ensures old(reg.IsProxy(o)) && !IsWellKnownSymbol(k) ==>
              WrapsResult(reg, Lookup(heap.Props(old(reg.proxyToRaw)[o.id]), k), c)
    ensures !old(reg.IsProxy(o)) ==>
              && c == PlainRead(heap, o, k) && added == []
              && store.connections == old(store.connections) && reg.rawToProxy == old(reg.rawToProxy)
  {
    if o.Ref? && o.id in reg.proxyToRaw {
      c, added := ReadThrough(reg, store, stack, heap, reg.proxyToRaw[o.id], k);
    } else {
      c, added := PlainRead(heap, o, k), [];
    }
  }

  /**
   * The `get` trap on a wrapped raw object, seen from the running reaction:
   * unless the key is a well-known symbol, the reaction on top of the stack
   * has the bucket of the key appended to its cleaners, and nothing else
   * changes in any running reaction.
   */
  method ReadThrough(reg: Registry, store: Store, stack: ReactionStack, heap: Heap, target: ObjId, k: Value)
    returns (c: Completion, ghost added: seq<Bucket>)
    requires Valid(reg, store, stack) && target in reg.rawToProxy
    modifies reg, store`connections, stack.items`cleaners
    ensures Valid(reg, store, stack) && Evolves(reg, stack, store, added)
    ensures c.Normal? || c == Abrupt(TypeError)
    ensures !IsWellKnownSymbol(k) && stack.items != [] ==>
              stack.items[|stack.items| - 1].cleaners
                == Appended(old(stack.items[|stack.items| - 1].cleaners), (target, KeyOf(k)))
    ensures IsWellKnownSymbol(k) ==> added == [] && c == Normal(Lookup(heap.Props(target), k))
    ensures !IsWellKnownSymbol(k) ==> WrapsResult(reg, Lookup(heap.Props(target), k), c)
  {
    ghost var before := if stack.items != [] then stack.items[|stack.items| - 1].cleaners else [];
    c := GetOnStack(reg, store, stack, heap, target, k);
    added := if stack.items != [] && !IsWellKnownSymbol(k) && (target, KeyOf(k)) !in before then [(target, KeyOf(k))] else [];
    assert before + [] == before;
  }

  /**
   * The `get` trap seen from the stack of running reactions: only the
   * reaction on top changes its cleaners, so the reactions below keep theirs
   * and the state stays valid.
   */
  method GetOnStack(reg: Registry, store: Store, stack: ReactionStack, heap: Heap, target: ObjId, k: Value)
    returns (c: Completion)
    requires Valid(reg, store, stack) && target in reg.rawToProxy
    modifies reg, store`connections, stack.items`cleaners
    ensures Valid(reg, store, stack) && Grown(reg) && store.known == old(store.known) && stack.items == old(stack.items)
    ensures forall i | 0 <= i < |stack.items| - 1 :: stack.items[i].cleaners == old(stack.items[i].cleaners)
    ensures !IsWellKnownSymbol(k) && stack.items != [] ==>
              stack.items[|stack.items| - 1].cleaners
                == Appended(old(stack.items[|stack.items| - 1].cleaners), (target, KeyOf(k)))
    ensures IsWellKnownSymbol(k) && stack.items != [] ==>
              stack.items[|stack.items| - 1].cleaners == old(stack.items[|stack.items| - 1].cleaners)
    ensures IsWellKnownSymbol(k) ==> c == Normal(Lookup(heap.Props(target), k))
    ensures !IsWellKnownSymbol(k) ==> WrapsResult(reg, Lookup(heap.Props(target), k), c)
  {
    ghost var tracked;
    c, tracked := Get(reg, store, stack, heap, target, k);
    forall i | 0 <= i < |stack.items| - 1
      ensures stack.items[i].cleaners == old(stack.items[i].cleaners)
    {
      assert stack.items[i] in old(store.Cleaners()) && stack.items[i] != stack.items[|stack.items| - 1];
    }
    if IsWellKnownSymbol(k) && stack.items != [] {
      assert stack.items[|stack.items| - 1] in old(store.Cleaners());
    }
  }

  /**
   * A property write `o[k] = v` in an observer body: on a proxy it is the
   * `set` trap on the proxy's raw object followed by the queueing of the
   * operation the trap reports, whose first failing reaction ends the
   * write; on a raw object it is a plain write that triggers nothing; on a
   * primitive it throws (module code is strict). No running reaction gains
   * a subscription: the reactions queued run under their own tracking.
   */
  method WriteProperty(reg: Registry, store: Store, stack: ReactionStack, heap: Heap,
                       o: Value, k: Value, v: Value, fuel: nat)
    returns (c: Completion, ghost queued: Option<Operation>, ghost invoked: seq<Reaction>, ghost runs: seq<Invocation>)
    requires Valid(reg, store, stack)
    modifies reg, store`connections, stack, heap, store.known`cleaners
    ensures Valid(reg, store, stack) && Evolves(reg, stack, store, [])
    ensures !o.Ref? ==> c == Abrupt(TypeError) && queued == None
    ensures o.Ref? && !old(reg.IsProxy(o)) ==>
              c == Normal(Undefined) && queued == None && heap.Props(o.id) == old(heap.Props(o.id))[k := v]
    ensures old(reg.IsProxy(o)) ==>
              var raw := old(reg.proxyToRaw)[o.id];
              && (k !in old(heap.Props(raw)) ==> queued == Some(Operation(AddOp, raw, k)))
              && (k in old(heap.Props(raw)) && old(Unwrapped(reg, v)) != old(heap.Props(raw))[k] ==>
                    queued == Some(Operation(SetOp, raw, k)))
              && (k in old(heap.Props(raw)) && old(Unwrapped(reg, v)) == old(heap.Props(raw))[k] ==> queued == None)
    ensures queued == None ==> invoked == [] && runs == [] && store.Cleaners() == old(store.Cleaners())
    ensures queued == None && c.Normal? ==> c == Normal(Undefined)
    ensures queued.Some? ==> NoDuplicates(invoked)
    ensures queued.Some? && c.Normal? ==>
              Elems(invoked) == Triggered(old(store.connections), queued.value, old(heap.IsArray(queued.value.target)))
    ensures queued.Some? ==> QueueRan(old(stack.items), old(reg.proxyToRaw), reg.proxyToRaw, invoked, runs, c)
    decreases fuel, 1, 1
  {
    queued, invoked, runs := None, [], [];
    if !o.Ref? {
      return Abrupt(TypeError), queued, invoked, runs;
    }
    if o.id !in reg.proxyToRaw {
      heap.SetProp(o.id, k, v);
      return Normal(Undefined), queued, invoked, runs;
    }
    c, queued, invoked, runs := WriteThrough(reg, store, stack, heap, reg.proxyToRaw[o.id], k, v, fuel);
  }

  /**
   * The `set` trap on a wrapped raw object, followed by the queueing of the
   * operation it reports; the first failing reaction ends the write.
   */
  method WriteThrough(reg: Registry, store: Store, stack: ReactionStack, heap: Heap,
                      raw: ObjId, k: Value, v: Value, fuel: nat)
    returns (c: Completion, ghost queued: Option<Operation>, ghost invoked: seq<Reaction>, ghost runs: seq<Invocation>)
    requires Valid(reg, store, stack) && raw in reg.rawToProxy
    modifies reg, store`connections, stack, heap, store.known`cleaners
    ensures Valid(reg, store, stack) && Evolves(reg, stack, store, [])
    ensures k !in old(heap.Props(raw)) ==> queued == Some(Operation(AddOp, raw, k))
    ensures k in old(heap.Props(raw)) && old(Unwrapped(reg, v)) != old(heap.Props(raw))[k] ==>
              queued == Some(Operation(SetOp, raw, k))
    ensures k in old(heap.Props(raw)) && old(Unwrapped(reg, v)) == old(heap.Props(raw))[k] ==> queued == None
    ensures queued == None ==> invoked == [] && runs == [] && store.Cleaners() == old(store.Cleaners()) && c == Normal(Undefined)
    ensures queued.Some? ==> NoDuplicates(invoked)
    ensures queued.Some? && c.Normal? ==>
              Elems(invoked) == Triggered(old(store.connections), queued.value, old(heap.IsArray(queued.value.target)))
    ensures queued.Some? ==> QueueRan(old(stack.items), old(reg.proxyToRaw), reg.proxyToRaw, invoked, runs, c)
    decreases fuel, 1, 0
  {
    var trigger := Set(reg, heap, raw, k, v);
    queued, invoked, runs := trigger, [], [];
    c := Normal(Undefined);
    if trigger.Some? {
      c, invoked, runs := Queue(reg, store, stack, heap, trigger.value, fuel);
    }
  }

  /** Invoking one more pending reaction keeps the invoked ones exactly those no longer pending, each once. */
  lemma InvokedStep(invoked: seq<Reaction>, all: set<Reaction>, pending: set<Reaction>, q: Reaction)
    requires Elems(invoked) == all - pending && NoDuplicates(invoked) && pending <= all && q in pending
    ensures Elems(invoked + [q]) == all - (pending - {q}) && NoDuplicates(invoked + [q])
  {
    assert q !in Elems(invoked);
    assert Elems(invoked + [q]) == Elems(invoked) + {q};
  }

  /** None of `rs` is cancelled. */
  ghost predicate Observed(rs: set<Reaction>)
    reads rs`unobserved
  {
    forall q <- rs :: !q.unobserved
  }

  /** A reaction in a bucket is known and not cancelled, since a cancelled reaction is subscribed to nothing. */
  lemma TriggeredObserved(reg: Registry, store: Store, stack: ReactionStack, op: Operation, isArray: bool)
    requires Valid(reg, store, stack)
    ensures forall q <- Triggered(store.connections, op, isArray) :: q in store.known && !q.unobserved
  {
    forall q <- Triggered(store.connections, op, isArray)
      ensures q in store.known && !q.unobserved
    {
      var b: Bucket := if q in BucketOf(store.connections, op.target, KeyOf(op.key)) then (op.target, KeyOf(op.key))
                       else (op.target, ShapeKey(isArray));
      assert q in BucketOf(store.connections, b.0, b.1);
      assert q.Listed(b);
    }
  }

  /**
   * `queueReactionsForOperation`: every reaction of the triggered set,
   * computed once before any of them runs, is invoked once, through
   * `runReactionWrap`; the first one that throws ends the queue. Invoking a
   * reaction costs one unit of fuel. The reactions invoked are subscribed,
   * so none is cancelled and each runs under its own tracking or is skipped.
   */
  method Queue(reg: Registry, store: Store, stack: ReactionStack, heap: Heap, op: Operation, fuel: nat)
    returns (c: Completion, ghost invoked: seq<Reaction>, ghost runs: seq<Invocation>)
    requires Valid(reg, store, stack) && op.target in store.connections
    modifies reg, store`connections, stack, heap, store.known`cleaners
    ensures Valid(reg, store, stack) && Evolves(reg, stack, store, [])
    ensures NoDuplicates(invoked)
    ensures Elems(invoked) <= Triggered(old(store.connections), op, old(heap.IsArray(op.target)))
    ensures c.Normal? ==>
              c == Normal(Undefined) && Elems(invoked) == Triggered(old(store.connections), op, old(heap.IsArray(op.target)))
    ensures fuel == 0 && Triggered(old(store.connections), op, old(heap.IsArray(op.target))) != {} ==> c == OutOfFuel
    ensures QueueRan(old(stack.items), old(reg.proxyToRaw), reg.proxyToRaw, invoked, runs, c)
    decreases fuel, 0, 1
  {
    var pending := store.GetReactionsForOperation(heap, op);
    TriggeredObserved(reg, store, stack, op, heap.IsArray(op.target));
    c, invoked, runs := RunAll(reg, store, stack, heap, pending, fuel);
  }

  /** The loop of `queueReactionsForOperation` over the reactions `all` it computed. */
  method RunAll(reg: Registry, store: Store, stack: ReactionStack, heap: Heap, all: set<Reaction>, fuel: nat)
    returns (c: Completion, ghost invoked: seq<Reaction>, ghost runs: seq<Invocation>)
    requires Valid(reg, store, stack) && all <= store.known && Observed(all)
    modifies reg, store`connections, stack, heap, store.known`cleaners
    ensures Valid(reg, store, stack) && Evolves(reg, stack, store, [])
    ensures NoDuplicates(invoked) && Elems(invoked) <= all
    ensures c.Normal? ==> c == Normal(Undefined) && Elems(invoked) == all
    ensures fuel == 0 && all != {} ==> c == OutOfFuel
    ensures QueueRan(old(stack.items), old(reg.proxyToRaw), reg.proxyToRaw, invoked, runs, c)
    decreases fuel, 0, 0
  {
    var pending := all;
    invoked, runs := [], [];
    while pending != {}
      invariant Valid(reg, store, stack) && Evolves(reg, stack, store, [])
      invariant pending <= all <= store.known
      invariant Observed(all)
      invariant Elems(invoked) == all - pending && NoDuplicates(invoked)
      invariant fuel == 0 ==> pending == all && invoked == []
      invariant QueueRan(old(stack.items), old(reg.proxyToRaw), reg.proxyToRaw, invoked, runs, Normal(Undefined))
      decreases pending
    {
      var q :| q in pending;
      if fuel == 0 {
        return OutOfFuel, invoked, runs;
      }
      InvokedStep(invoked, all, pending, q);
      ghost var p1, r1 := reg.proxyToRaw, reg.rawToProxy;
      ghost var mid := if stack.items != [] then stack.items[|stack.items| - 1].cleaners else [];
      label step:
      ghost var inv;
      var r;
      r, inv := InvokeQueued(reg, store, stack, heap, q, fuel - 1, all);
      assert stack.items == old@step(stack.items) == old(stack.items);
      assert stack.items != [] ==> stack.items[|stack.items| - 1].cleaners == mid;
      QueueStep(old(stack.items), old(reg.proxyToRaw), p1, reg.proxyToRaw, invoked, runs, inv);
      ExtendsTrans(old(reg.proxyToRaw), p1, reg.proxyToRaw);
      ExtendsTrans(old(reg.rawToProxy), r1, reg.rawToProxy);
      invoked, runs := invoked + [q], runs + [inv];
      pending := pending - {q};
      if !r.Normal? {
        return r, invoked, runs;
      }
    }
    c := Normal(Undefined);
  }

  /**
   * One queued reaction runs through `runReactionWrap`. It is not cancelled,
   * so it is skipped exactly when it is already running and otherwise runs
   * under its own tracking, ending subscribed to exactly what that run read;
   * the running reaction's cleaners stay as they were, and no reaction gets
   * cancelled.
   */
  method InvokeQueued(reg: Registry, store: Store, stack: ReactionStack, heap: Heap, q: Reaction, fuel: nat,
                      ghost rs: set<Reaction>)
    returns (c: Completion, ghost inv: Invocation)
    requires Valid(reg, store, stack) && q in store.known && !q.unobserved && Observed(rs)
    modifies reg, store`connections, stack, heap, store.known`cleaners
    ensures Valid(reg, store, stack) && Evolves(reg, stack, store, []) && Observed(rs)
    ensures stack.items != [] ==> stack.items[|stack.items| - 1].cleaners == old(stack.items[|stack.items| - 1].cleaners)
    ensures inv.reaction == q && inv.result == c && Ran(old(stack.items), old(reg.proxyToRaw), reg.proxyToRaw, inv)
    ensures inv.path == Tracked ==> Elems(q.cleaners) == SubscribedBy(inv.log)
    ensures FoundIn(old(heap.objects), inv.log)
    decreases fuel, 7
  {
    if stack.items != [] {
      ghost var top := stack.items[|stack.items| - 1].cleaners;
      assert top + [] == top;
    }
    ghost var added, path, log, inner;
    c, added, path, log, inner := RunReactionWrap(reg, store, stack, heap, q, fuel);
    inv := Invocation(q, path, log, c);
  }

  /**
   * Runs an observer body in environment `env`: `Return` and `Raise` end
   * it, `Read` binds the value read, `Write` assigns and queues, `Branch`
   * tests truthiness; the first abrupt step ends the body. The steps
   * performed are `log`, along the path the body takes, and the running
   * reaction gains exactly the buckets of the reads among them.
   */
  method ExecScript(reg: Registry, store: Store, stack: ReactionStack, heap: Heap, s: Script, env: seq<Value>, fuel: nat)
    returns (c: Completion, ghost added: seq<Bucket>, ghost log: seq<Step>)
    requires Valid(reg, store, stack)
    modifies reg, store`connections, stack, heap, store.known`cleaners
    ensures Valid(reg, store, stack) && Evolves(reg, stack, store, added)
    ensures Runs(s, env, log, c) && ReadsSeen(reg, log) && TopGains(stack, SubscribedBy(log))
    ensures FoundIn(old(heap.objects), log)
    ensures (s.Read? || s.Write?) && (Eval(s.obj, env) == Undefined || Eval(s.obj, env) == Null) ==>
              c == Abrupt(TypeError) && added == []
    decreases fuel, 2, s, 2
  {
    match s
    case Return(result) =>
      c, added, log := Normal(Eval(result, env)), [], [];
    case Raise(error) =>
      c, added, log := Abrupt(Thrown(Eval(error, env))), [], [];
    case Read(_, _, _) =>
      c, added, log := ExecRead(reg, store, stack, heap, s, env, fuel);
    case Write(_, _, _, _) =>
      c, added, log := ExecWrite(reg, store, stack, heap, s, env, fuel);
    case Branch(cond, onTrue, onFalse) =>
      if Truthy(Eval(cond, env)) {
        c, added, log := ExecScript(reg, store, stack, heap, onTrue, env, fuel);
      } else {
        c, added, log := ExecScript(reg, store, stack, heap, onFalse, env, fuel);
      }
  }

  /**
   * A `Read` step: the property is read, recording whether the object read
   * was a proxy, and the rest of the body runs with the value read bound.
   */
  method ExecRead(reg: Registry, store: Store, stack: ReactionStack, heap: Heap, s: Script, env: seq<Value>, fuel: nat)
    returns (c: Completion, ghost added: seq<Bucket>, ghost log: seq<Step>)
    requires Valid(reg, store, stack) && s.Read?
    modifies reg, store`connections, stack, heap, store.known`cleaners
    ensures Valid(reg, store, stack) && Evolves(reg, stack, store, added)
    ensures Runs(s, env, log, c) && ReadsSeen(reg, log) && TopGains(stack, SubscribedBy(log))
    ensures FoundIn(old(heap.objects), log)
    ensures Eval(s.obj, env) == Undefined || Eval(s.obj, env) == Null ==> c == Abrupt(TypeError) && added == []
    decreases fuel, 2, s, 1
  {
    ghost var before := if stack.items != [] then stack.items[|stack.items| - 1].cleaners else [];
    ghost var p0, r0, h := reg.proxyToRaw, reg.rawToProxy, heap.objects;
    ghost var first;
    c, added, first := ReadStepOf(reg, store, stack, heap, Eval(s.obj, env), Eval(s.key, env));
    log := [first];
    ghost var rest := [];
    if c.Normal? {
      ghost var a2;
      label read:
      c, a2, rest, log := ExecAfterRead(reg, store, stack, heap, s, env, first, c.value, p0, r0, before, added, fuel);
      assert stack.items == old@read(stack.items) == old(stack.items);
      added := added + a2;
    } else {
      assert log == [first] + rest;
      assert SubscribedBy(log) == StepBuckets(first);
      FoundCons(h, first, rest);
      RunsRead(s, env, first, rest, c);
    }
  }

  /**
   * The rest of the body after a read that completed normally, run with the
   * value read bound; the read and the rest make up the log. `p0`, `r0`,
   * `before` and `a1` describe the state before the read, so that the whole
   * log is accounted for from there.
   */
  method ExecAfterRead(reg: Registry, store: Store, stack: ReactionStack, heap: Heap, s: Script, env: seq<Value>,
                       ghost first: Step, v: Value, ghost p0: map<ObjId, ObjId>, ghost r0: map<ObjId, ObjId>,
                       ghost before: seq<Bucket>, ghost a1: seq<Bucket>, fuel: nat)
    returns (c: Completion, ghost added: seq<Bucket>, ghost rest: seq<Step>, ghost log: seq<Step>)
    requires Valid(reg, store, stack) && s.Read?
    requires first.ReadStep? && first.obj == Eval(s.obj, env) && first.key == Eval(s.key, env) && first.result == Normal(v)
    requires first.seen == Found(heap.objects, first.obj, first.raw, first.key)
    requires Extends(p0, reg.proxyToRaw) && Extends(r0, reg.rawToProxy) && Saw(p0, reg.proxyToRaw, [first])
    requires stack.items != [] ==> var top := stack.items[|stack.items| - 1].cleaners;
      top == before + a1 && Elems(top) == Elems(before) + StepBuckets(first)
    modifies reg, store`connections, stack, heap, store.known`cleaners
    ensures Valid(reg, store, stack) && Evolves(reg, stack, store, added)
    ensures log == [first] + rest && Runs(s, env, log, c) && FoundIn(old(heap.objects), log)
    ensures Extends(p0, reg.proxyToRaw) && Extends(r0, reg.rawToProxy) && Saw(p0, reg.proxyToRaw, log)
    ensures stack.items != [] ==> var top := stack.items[|stack.items| - 1].cleaners;
      top == before + (a1 + added) && Elems(top) == Elems(before) + SubscribedBy(log)
    decreases fuel, 2, s, 0
  {
    ghost var h := heap.objects;
    ghost var mid := if stack.items != [] then stack.items[|stack.items| - 1].cleaners else [];
    ghost var p1, r1 := reg.proxyToRaw, reg.rawToProxy;
    c, added, rest := ExecScript(reg, store, stack, heap, s.next, env + [v], fuel);
    log := [first] + rest;
    FoundCons(h, first, rest);
    RunsRead(s, env, first, rest, c);
    SawCons(p0, p1, reg.proxyToRaw, first, rest);
    ExtendsTrans(p0, p1, reg.proxyToRaw);
    ExtendsTrans(r0, r1, reg.rawToProxy);
    if stack.items != [] {
      GainsCons(before, mid, stack.items[|stack.items| - 1].cleaners, first, rest);
      AppendAssoc(before, a1, added);
    }
  }

  /**
   * The read of a `Read` step, recorded as a step: the raw object is the one
   * behind `o` if `o` is a proxy, and the value found is the heap's.
   */
  method ReadStepOf(reg: Registry, store: Store, stack: ReactionStack, heap: Heap, o: Value, k: Value)
    returns (c: Completion, ghost added: seq<Bucket>, ghost first: Step)
    requires Valid(reg, store, stack)
    modifies reg, store`connections, stack.items`cleaners
    ensures Valid(reg, store, stack) && Evolves(reg, stack, store, added)
    ensures first.ReadStep? && first.obj == o && first.key == k && first.result == c
    ensures first.raw == if old(reg.IsProxy(o)) then Some(old(reg.proxyToRaw)[o.id]) else None
    ensures first.seen == Found(heap.objects, o, first.raw, k)
    ensures ReadsSeen(reg, [first]) && TopGains(stack, StepBuckets(first))
    ensures o == Undefined || o == Null ==> c == Abrupt(TypeError) && added == []
  {
    ghost var raw := if reg.IsProxy(o) then Some(reg.proxyToRaw[o.id]) else None;
    ghost var before := if stack.items != [] then stack.items[|stack.items| - 1].cleaners else [];
    c, added := ReadProperty(reg, store, stack, heap, o, k);
    first := ReadStep(o, k, raw, Found(heap.objects, o, raw, k), c);
    SawOne(old(reg.proxyToRaw), reg.proxyToRaw, first);
    if stack.items != [] && StepBuckets(first) == {} {
      assert before + added == before + [];
    }
  }

  /** A `Write` step: the property is written (queueing what it triggers), and the rest of the body runs if that completed normally. */
  method ExecWrite(reg: Registry, store: Store, stack: ReactionStack, heap: Heap, s: Script, env: seq<Value>, fuel: nat)
    returns (c: Completion, ghost added: seq<Bucket>, ghost log: seq<Step>)
    requires Valid(reg, store, stack) && s.Write?
    modifies reg, store`connections, stack, heap, store.known`cleaners
    ensures Valid(reg, store, stack) && Evolves(reg, stack, store, added)
    ensures Runs(s, env, log, c) && ReadsSeen(reg, log) && TopGains(stack, SubscribedBy(log))
    ensures FoundIn(old(heap.objects), log)
    ensures Eval(s.obj, env) == Undefined || Eval(s.obj, env) == Null ==> c == Abrupt(TypeError) && added == []
    decreases fuel, 2, s, 0
  {
    ghost var before := if stack.items != [] then stack.items[|stack.items| - 1].cleaners else [];
    ghost var p0, r0 := reg.proxyToRaw, reg.rawToProxy;
    var o, k, v := Eval(s.obj, env), Eval(s.key, env), Eval(s.value, env);
    ghost var queued, invoked, runs;
    c, queued, invoked, runs := WriteProperty(reg, store, stack, heap, o, k, v, fuel);
    ghost var first := WriteStep(o, k, v, c);
    SawOne(p0, reg.proxyToRaw, first);
    added, log := [], [first];
    ghost var rest := [];
    if c.Normal? {
      ghost var mid := if stack.items != [] then stack.items[|stack.items| - 1].cleaners else [];
      assert stack.items != [] ==> mid == before + [] == before;
      ghost var p1, r1 := reg.proxyToRaw, reg.rawToProxy;
      label written:
      c, added, rest := ExecScript(reg, store, stack, heap, s.next, env, fuel);
      assert stack.items == old@written(stack.items) == old(stack.items);
      log := [first] + rest;
      SawCons(p0, p1, reg.proxyToRaw, first, rest);
      ExtendsTrans(p0, p1, reg.proxyToRaw);
      ExtendsTrans(r0, r1, reg.rawToProxy);
      if stack.items != [] {
        GainsCons(before, mid, stack.items[|stack.items| - 1].cleaners, first, rest);
      }
    } else {
      assert log == [first] + rest;
      assert SubscribedBy(log) == {};
    }
    RunsWrite(s, env, first, rest, c);
  }

}

=== FILE: handler_table.dfy ===
/**
 * The constructor-to-handlers table (`handlers` and `getHandlers`): which
 * proxy handlers an object would get, by its constructor.
 */
module HandlerTable {
  import opened Types

  /** The two handler sets: `baseHandlers` and `collectionHandlers`. */
  datatype Strategy = BaseStrategy | CollectionStrategy

  /** The `handlers` table. `BigInt64Array` and `BigUint64Array` are not in it. */
  const HANDLERS: map<Ctor, Strategy> := map[
    MapCtor := CollectionStrategy,
    SetCtor := CollectionStrategy,
    WeakMapCtor := CollectionStrategy,
    WeakSetCtor := CollectionStrategy,
    ObjectCtor := BaseStrategy,
    ArrayCtor := BaseStrategy,
    Int8ArrayCtor := BaseStrategy,
    Uint8ArrayCtor := BaseStrategy,
    Uint8ClampedArrayCtor := BaseStrategy,
    Int16ArrayCtor := BaseStrategy,
    Uint16ArrayCtor := BaseStrategy,
    Int32ArrayCtor := BaseStrategy,
    Uint32ArrayCtor := BaseStrategy,
    Float32ArrayCtor := BaseStrategy,
    Float64ArrayCtor := BaseStrategy
  ]

  /** The keyed collections. */
  predicate IsCollectionCtor(ctor: Ctor)
  {
    ctor.MapCtor? || ctor.SetCtor? || ctor.WeakMapCtor? || ctor.WeakSetCtor?
  }

  /** The nine typed-array constructors of the table. */
  predicate IsTypedArrayCtor(ctor: Ctor)
  {
    || ctor.Int8ArrayCtor? || ctor.Uint8ArrayCtor? || ctor.Uint8ClampedArrayCtor?
    || ctor.Int16ArrayCtor? || ctor.Uint16ArrayCtor? || ctor.Int32ArrayCtor?
    || ctor.Uint32ArrayCtor? || ctor.Float32ArrayCtor? || ctor.Float64ArrayCtor?
  }

  /**
   * `getHandlers(obj)`: the table entry for `obj.constructor`, or
   * `undefined`. Collections get the collection handlers, plain objects,
   * arrays and typed arrays the base handlers, and every other constructor
   * gets nothing.
   */
  function GetHandlers(ctor: Ctor): (h: Option<Strategy>)
    ensures h.Some? <==> ctor in HANDLERS
    ensures h.Some? ==> h.value == HANDLERS[ctor]
    ensures h == Some(CollectionStrategy) <==> IsCollectionCtor(ctor)
    ensures h == Some(BaseStrategy) <==> ctor == ObjectCtor || ctor == ArrayCtor || IsTypedArrayCtor(ctor)
    ensures h == None <==> ctor.OtherCtor?
  {
    if ctor in HANDLERS then Some(HANDLERS[ctor]) else None
  }
}

=== FILE: heap.dfy ===
/**
 * The JavaScript heap that raw objects live in: own properties are read and
 * written here, and new object identities are drawn from here.
 */
module JsHeap {
  import opened Types

  class Heap {
    var objects: map<ObjId, RawObject>

    constructor (objects: map<ObjId, RawObject>)
      ensures this.objects == objects
    {
      this.objects := objects;
    }

    /** Own properties of an object; an identity the heap does not hold has none. */
    function Props(id: ObjId): map<Value, Value>
      reads this
    {
      PropsIn(objects, id)
    }

    /** Collection data of an object. */
    function Coll(id: ObjId): Collection
      reads this
    {
      if id in objects then objects[id].coll else NoCollection
    }

    /** `Array.isArray(target)`. */
    predicate IsArray(id: ObjId)
      reads this
    {
      id in objects && objects[id].isArray
    }

    /** `Reflect.set` of an own data property. */
    method SetProp(id: ObjId, key: Value, value: Value)
      modifies this
      ensures Props(id) == old(Props(id))[key := value]
      ensures Coll(id) == old(Coll(id))
      ensures IsArray(id) == old(IsArray(id))
      ensures forall o :: o != id ==> Props(o) == old(Props(o)) && Coll(o) == old(Coll(o))
      ensures forall o :: o != id ==> IsArray(o) == old(IsArray(o))
    {
      var obj := if id in objects then objects[id] else RawObject(ObjectCtor, false, map[], NoCollection);
      objects := objects[id := obj.(props := obj.props[key := value])];
    }

    /** Replace the collection data of an object. */
    method SetColl(id: ObjId, c: Collection)
      modifies this
      ensures Coll(id) == c
      ensures forall o :: Props(o) == old(Props(o)) && IsArray(o) == old(IsArray(o))
      ensures forall o :: o != id ==> Coll(o) == old(Coll(o))
    {
      var obj := if id in objects then objects[id] else RawObject(ObjectCtor, false, map[], NoCollection);
      objects := objects[id := obj.(coll := c)];
    }
  }

  /** Own properties of object `id` among `objects`; an identity not there has none. */
  function PropsIn(objects: map<ObjId, RawObject>, id: ObjId): map<Value, Value>
  {
    if id in objects then objects[id].props else map[]
  }

  /** The value of a property: its own value, or `undefined` when it has none. */
  function Lookup(props: map<Value, Value>, key: Value): Value
  {
    if key in props then props[key] else Undefined
  }

  /** An object identity that is not in `used` (and larger than all of it). */
  method FreshId(used: set<ObjId>) returns (r: ObjId)
    ensures r !in used
    ensures forall u <- used :: u < r
  {
    r := 0;
    var rest := used;
    while rest != {}
      invariant rest <= used
      invariant forall x :: x in used && x !in rest ==> x < r
      decreases rest
    {
      var u :| u in rest;
      if r <= u {
        r := u + 1;
      }
      rest := rest - {u};
    }
  }
}

=== FILE: observe.dfy ===
/**
 * The observer API: `observe` wraps a function in a new reaction and runs
 * it once, `unobserve` cancels a reaction and releases its subscriptions.
 */
module Observe {
  import opened Types
  import opened JsHeap
  import opened Store
  import opened ReactionStack
  import opened Proxies
  import opened Execution

  /**
   * `observe(fn)`: a function whose `IS_REACTION` property is set comes back
   * as it is and nothing runs. Any other function, a reaction function
   * included (nothing ever sets the flag on one), is wrapped in a new
   * reaction that is run once through `runReactionWrap`. That first run
   * completes as the function's body does, and `c` is its completion:
   * `observe` discards a normal completion and returns the reaction
   * (`result`), while an abrupt `c` is the throw that escapes `observe`. The
   * new reaction ends subscribed to exactly the buckets that run read.
   */
  method Observe(reg: Registry, store: Store, stack: ReactionStack, heap: Heap, fn: Callable, fuel: nat)
    returns (c: Completion, result: Callable, ghost log: seq<Step>)
    requires Valid(reg, store, stack)
    requires fn.ReactionFunction? ==> fn.reaction in store.known
    modifies reg, store, stack, heap, store.known`cleaners
    ensures Valid(reg, store, stack) && stack.items == old(stack.items) && Grown(reg) && ReadsSeen(reg, log)
    ensures fn.UserFunction? && fn.isReactionFlag ==>
              && result == fn && c == Normal(Undefined) && log == []
              && store.known == old(store.known) && store.connections == old(store.connections)
    ensures !(fn.UserFunction? && fn.isReactionFlag) ==>
              && result.ReactionFunction? && fresh(result.reaction) && result.reaction.fn == fn
              && store.known == old(store.known) + {result.reaction} && !result.reaction.unobserved
              && (fn.UserFunction? ==> Runs(fn.body, [], log, c))
              && (forall t: ObjId, k :: result.reaction in store.Bucket(t, k) <==> (t, k) in SubscribedBy(log))
    ensures forall i | 0 <= i < |stack.items| :: stack.items[i].cleaners == old(stack.items[i].cleaners)
    ensures FoundIn(old(heap.objects), log)
  {
    if fn.UserFunction? && fn.isReactionFlag {
      return Normal(Undefined), fn, [];
    }
    var r := new Reaction(fn);
    store.Admit(r);
    ghost var added, path, inner;
    c, added, path, log, inner := RunReactionWrap(reg, store, stack, heap, r, fuel);
    result := ReactionFunction(r);
    forall t: ObjId, k
      ensures r in store.Bucket(t, k) <==> (t, k) in SubscribedBy(log)
    {
      assert r in store.Bucket(t, k) <==> r.Listed((t, k));
    }
  }

  /**
   * `unobserve(r)`: the first call marks the reaction cancelled and releases
   * it from every bucket; a call on a cancelled reaction changes nothing.
   */
  method Unobserve(reg: Registry, store: Store, stack: ReactionStack, r: Reaction)
    requires Valid(reg, store, stack) && r in store.known && !stack.IsRunning(r)
    modifies store`connections, r
    ensures Valid(reg, store, stack)
    ensures r.unobserved && r.cleaners == []
    ensures forall t: ObjId, k :: r !in store.Bucket(t, k)
    ensures !old(r.unobserved) ==> forall t: ObjId, k :: store.Bucket(t, k) == old(store.Bucket(t, k)) - {r}
    ensures old(r.unobserved) ==> store.connections == old(store.connections)
  {
    if !r.unobserved {
      r.unobserved := true;
      store.ReleaseReaction(r);
    } else {
      CancelledInNoBucket(reg, store, stack, r);
    }
  }

  /**
   * A cancelled reaction is in no bucket. Since a cancelled reaction is
   * run bare (it is never pushed, so no read registers it), it stays out of
   * every bucket from `unobserve` on.
   */
  lemma CancelledInNoBucket(reg: Registry, store: Store, stack: ReactionStack, r: Reaction)
    requires Valid(reg, store, stack) && r in store.known && r.unobserved
    ensures r.cleaners == []
    ensures forall t: ObjId, k :: r !in store.Bucket(t, k)
  {
    forall t: ObjId, k
      ensures r !in store.Bucket(t, k)
    {
      assert !r.Listed((t, k));
    }
  }
}

=== FILE: reaction_stack.dfy ===
/**
 * The execution context of reaction.ts: the global `reactionStack` of
 * running reactions, its queries, and the registration of the running
 * reaction for a tracked read.
 */
module ReactionStack {
  import opened Types
  import opened Store

  class ReactionStack {
    /** Running reactions, innermost last. */
    var items: seq<Reaction>

    constructor ()
      ensures items == []
    {
      items := [];
    }

    /** `reactionStack.push`: the reaction becomes the running one. */
    method Push(r: Reaction)
      modifies this`items
      ensures items == old(items) + [r]
    {
      items := items + [r];
    }

    /** `reactionStack.pop`: the running reaction leaves the stack. */
    method Pop()
      requires items != []
      modifies this`items
      ensures items == old(items[..|items| - 1])
    {
      items := items[..|items| - 1];
    }

    /** `isRunning`: the reaction is somewhere on the stack. */
    predicate IsRunning(r: Reaction)
      reads this
    {
      r in items
    }

    /** `hasRunningReaction`. */
    predicate HasRunningReaction()
      reads this
    {
      |items| > 0
    }

    /** `getRunningReaction`: the last element of the stack, if any. */
    function GetRunningReaction(): (r: Option<Reaction>)
      reads this
      ensures r.Some? ==> |items| > 0 && r.value == items[|items| - 1]
      ensures r.None? ==> items == []
    {
      if |items| == 0 then None else Some(items[|items| - 1])
    }
  }

  /**
   * The three queries agree: there is a running reaction exactly when the
   * stack is non-empty, and the running reaction is one that `IsRunning` reports.
   */
  lemma QueriesAgree(stack: ReactionStack)
    ensures stack.GetRunningReaction().Some? <==> stack.HasRunningReaction()
    ensures forall r :: stack.GetRunningReaction() == Some(r) ==> stack.IsRunning(r)
    ensures stack.HasRunningReaction() <==> exists r :: stack.IsRunning(r)
  {
    if stack.HasRunningReaction() {
      assert stack.IsRunning(stack.items[|stack.items| - 1]);
    }
  }

  /** The buckets a tracked operation subscribes to: none when no reaction runs. */
  function TrackedBy(stack: ReactionStack, op: Operation): (b: set<Bucket>)
    reads stack
    ensures b == {} <==> stack.items == []
    ensures b != {} ==> b == {(op.target, TrackedKey(op))}
  {
    if stack.items == [] then {} else {(op.target, TrackedKey(op))}
  }

  /**
   * From `before` to `after` (cleaners of the known reactions), only the
   * running reaction, the last of `items`, changed its cleaners, and it
   * gained exactly the buckets in `tracked`.
   */
  predicate TrackedChange(before: map<Reaction, seq<Bucket>>, after: map<Reaction, seq<Bucket>>,
                          items: seq<Reaction>, tracked: set<Bucket>)
  {
    && after.Keys == before.Keys
    && (items == [] ==> tracked == {})
    && (forall q <- before :: (items == [] || q != items[|items| - 1]) ==> after[q] == before[q])
    && (items != [] && items[|items| - 1] in before ==>
          Elems(after[items[|items| - 1]]) == Elems(before[items[|items| - 1]]) + tracked)
  }

  /**
   * What tracking did between two states: the running reaction gained the
   * buckets in `tracked` in its cleaners, and every other reaction's cleaners
   * are as they were (so, by the store invariant, no other membership changed).
   */
  twostate predicate Tracks(stack: ReactionStack, store: Store, new tracked: set<Bucket>)
    reads stack, store, store.known
  {
    && store.Valid() && store.known == old(store.known)
    && stack.items == old(stack.items)
    && TrackedChange(old(store.Cleaners()), store.Cleaners(), stack.items, tracked)
  }

  /**
   * Tracking changes the buckets in exactly one way: the running reaction
   * joins the tracked buckets, and nothing else joins or leaves any bucket.
   */
  twostate lemma TrackedBuckets(stack: ReactionStack, store: Store, new tracked: set<Bucket>)
    requires old(store.Valid()) && Tracks(stack, store, tracked)
    requires forall q <- stack.items :: q in store.known
    ensures forall t: ObjId, k :: store.Bucket(t, k) == old(store.Bucket(t, k))
              + (if (t, k) in tracked && stack.items != [] then {stack.items[|stack.items| - 1]} else {})
  {
    forall t: ObjId, k
      ensures store.Bucket(t, k) == old(store.Bucket(t, k))
                + (if (t, k) in tracked && stack.items != [] then {stack.items[|stack.items| - 1]} else {})
    {
      forall q | q in store.Bucket(t, k)
        ensures q in old(store.Bucket(t, k)) || ((t, k) in tracked && q == stack.items[|stack.items| - 1])
      {
        assert q.Listed((t, k)) && store.Cleaners()[q] == q.cleaners;
        if stack.items != [] && q == stack.items[|stack.items| - 1] {
          assert (t, k) in Elems(q.cleaners);
          if (t, k) in Elems(old(q.cleaners)) {
            assert (t, k) in old(q.cleaners);
          }
        } else {
          assert q in old(store.known);
          assert q.cleaners == old(q.cleaners);
        }
      }
      forall q | q in old(store.Bucket(t, k))
        ensures q in store.Bucket(t, k)
      {
        assert old(q.Listed((t, k))) && old(store.Cleaners())[q] == old(q.cleaners);
        if stack.items != [] && q == stack.items[|stack.items| - 1] {
          assert (t, k) in Elems(old(q.cleaners));
          assert (t, k) in Elems(q.cleaners);
        } else {
          assert q.cleaners == old(q.cleaners);
        }
        assert q.Listed((t, k));
      }
      if (t, k) in tracked && stack.items != [] {
        assert (t, k) in Elems(stack.items[|stack.items| - 1].cleaners);
        assert stack.items[|stack.items| - 1].Listed((t, k));
      }
    }
  }

  /**
   * `registerRunningReaction`: the running reaction, if there is one, is
   * registered for the operation; with an empty stack nothing changes.
   */
  method RegisterRunningReaction(stack: ReactionStack, store: Store, op: Operation)
    returns (ghost tracked: set<Bucket>)
    requires store.Valid() && op.target in store.connections
    requires forall q <- stack.items :: q in store.known
    modifies store`connections, stack.items`cleaners
    ensures Tracks(stack, store, tracked) && tracked == TrackedBy(stack, op)
    ensures store.connections.Keys == old(store.connections.Keys)
    ensures stack.items == [] ==> store.connections == old(store.connections)
    ensures stack.items != [] ==> stack.items[|stack.items| - 1] in store.Bucket(op.target, TrackedKey(op))
    ensures stack.items != [] ==>
              stack.items[|stack.items| - 1].cleaners
                == Appended(old(stack.items[|stack.items| - 1].cleaners), (op.target, TrackedKey(op)))
  {
    var running := stack.GetRunningReaction();
    tracked := {};
    if running.Some? {
      store.RegisterReactionForOperation(running.value, op);
      tracked := {(op.target, TrackedKey(op))};
    }
  }
}

=== FILE: reactive.dfy ===
/**
 * The identity registry: the two maps `rawToProxy` and `proxyToRaw`, and
 * `reactive`, `createReactive` and `raw` over them.
 */
module Proxies {
  import opened Types
  import opened JsHeap
  import opened Store

  class Registry {
    var rawToProxy: map<ObjId, ObjId>
    var proxyToRaw: map<ObjId, ObjId>

    constructor ()
      ensures rawToProxy == map[] && proxyToRaw == map[]
      ensures Valid()
    {
      rawToProxy := map[];
      proxyToRaw := map[];
    }

    /** The two maps are inverse to each other, and no proxy is itself a wrapped raw object. */
    ghost predicate Valid()
      reads this
    {
      && (forall x <- rawToProxy :: rawToProxy[x] in proxyToRaw && proxyToRaw[rawToProxy[x]] == x)
      && (forall p <- proxyToRaw :: proxyToRaw[p] in rawToProxy && rawToProxy[proxyToRaw[p]] == p)
      && rawToProxy.Keys !! proxyToRaw.Keys
    }

    /** `proxyToRaw.has(v)`: a WeakMap lookup, false for a primitive. */
    predicate IsProxy(v: Value)
      reads this
    {
      v.Ref? && v.id in proxyToRaw
    }

    /** `raw(v)`: the raw object behind a proxy, and `undefined` for anything else. */
    function Raw(v: Value): (r: Value)
      reads this
      ensures IsProxy(v) ==> r == Ref(proxyToRaw[v.id])
      ensures !IsProxy(v) ==> r == Undefined
    {
      if v.Ref? && v.id in proxyToRaw then Ref(proxyToRaw[v.id]) else Undefined
    }
  }

  /** Map `after` keeps every entry of `before` as it was. */
  predicate Extends(before: map<ObjId, ObjId>, after: map<ObjId, ObjId>)
  {
    forall x <- before :: x in after && after[x] == before[x]
  }

  /** Keeping every entry is transitive. */
  lemma ExtendsTrans(a: map<ObjId, ObjId>, b: map<ObjId, ObjId>, c: map<ObjId, ObjId>)
    requires Extends(a, b) && Extends(b, c)
    ensures Extends(a, c)
  {
  }

  /** The registry only grows: every entry of either map is kept as it was. */
  twostate predicate Grown(reg: Registry)
    reads reg
  {
    Extends(old(reg.rawToProxy), reg.rawToProxy) && Extends(old(reg.proxyToRaw), reg.proxyToRaw)
  }

  /** Each wrapped raw object has its entry in the dependency store, and no other object has one. */
  ghost predicate Aligned(reg: Registry, store: Store)
    reads reg, store
  {
    store.connections.Keys == reg.rawToProxy.Keys
  }

  /** For a proxy, `Raw` inverts the registry: the proxy of its raw object is the proxy itself. */
  lemma RawOfProxy(reg: Registry, p: Value)
    requires reg.Valid() && reg.IsProxy(p)
    ensures reg.Raw(p).Ref? && reg.Raw(p).id in reg.rawToProxy
    ensures Ref(reg.rawToProxy[reg.Raw(p).id]) == p
  {
  }

  /**
   * `createReactive`: a new proxy, distinct from every proxy, every wrapped
   * raw object and every heap object, is recorded in both directions, and
   * the raw object gets its empty store entry.
   */
  method CreateReactive(reg: Registry, store: Store, heap: Heap, raw: ObjId) returns (p: ObjId)
    requires reg.Valid() && store.Valid() && Aligned(reg, store)
    requires raw !in reg.rawToProxy && raw !in reg.proxyToRaw
    modifies reg, store`connections
    ensures reg.Valid() && store.Valid() && Aligned(reg, store) && store.known == old(store.known)
    ensures store.Cleaners() == old(store.Cleaners())
    ensures p != raw && p !in old(reg.proxyToRaw) && p !in old(reg.rawToProxy) && p !in heap.objects
    ensures reg.rawToProxy == old(reg.rawToProxy)[raw := p]
    ensures reg.proxyToRaw == old(reg.proxyToRaw)[p := raw]
    ensures store.connections == old(store.connections)[raw := map[]]
    ensures forall t: ObjId, k :: store.Bucket(t, k) == old(store.Bucket(t, k))
  {
    p := FreshId(reg.rawToProxy.Keys + reg.proxyToRaw.Keys + heap.objects.Keys + {raw});
    reg.rawToProxy := reg.rawToProxy[raw := p];
    reg.proxyToRaw := reg.proxyToRaw[p := raw];
    store.StoreObservable(raw);
  }

  /**
   * `reactive(v)`: a proxy comes back as it is; a raw object that has a
   * proxy gets that proxy; any other object gets a new one; a primitive
   * (including `null`) makes `new Proxy` throw a TypeError.
   */
  method Reactive(reg: Registry, store: Store, heap: Heap, v: Value) returns (c: Completion)
    requires reg.Valid() && store.Valid() && Aligned(reg, store)
    modifies reg, store`connections
    ensures reg.Valid() && store.Valid() && Aligned(reg, store) && store.known == old(store.known)
    ensures store.Cleaners() == old(store.Cleaners())
    ensures forall t: ObjId, k :: store.Bucket(t, k) == old(store.Bucket(t, k))
    ensures Grown(reg)
    ensures !v.Ref? ==> c == Abrupt(TypeError)
    ensures v.Ref? ==> c.Normal? && reg.IsProxy(c.value)
    ensures old(reg.IsProxy(v)) ==> c == Normal(v)
    ensures v.Ref? && !old(reg.IsProxy(v)) ==> reg.Raw(c.value) == v
    ensures v.Ref? && v.id in old(reg.rawToProxy) ==> c == Normal(Ref(old(reg.rawToProxy)[v.id]))
    ensures (!v.Ref? || v.id in old(reg.rawToProxy) || old(reg.IsProxy(v)))
              ==> reg.rawToProxy == old(reg.rawToProxy) && reg.proxyToRaw == old(reg.proxyToRaw)
                  && store.connections == old(store.connections)
    ensures v.Ref? && v.id !in old(reg.rawToProxy) && !old(reg.IsProxy(v)) ==>
              && c.value.id !in old(reg.proxyToRaw) && c.value.id !in old(reg.rawToProxy)
              && c.value.id !in heap.objects && c.value.id != v.id
              && store.connections == old(store.connections)[v.id := map[]]
  {
    if v.Ref? && v.id in reg.proxyToRaw {
      return Normal(v);
    }
    if v.Ref? && v.id in reg.rawToProxy {
      return Normal(Ref(reg.rawToProxy[v.id]));
    }
    if !v.Ref? {
      return Abrupt(TypeError);
    }
    var p := CreateReactive(reg, store, heap, v.id);
    c := Normal(Ref(p));
  }
}

=== FILE: scenarios.dfy ===
/**
 * Small observers, run through the API, with what their runs are bound to
 * do: an observer that reads a proxy is subscribed to that read and sees
 * the value stored there, a branch taken on a value read decides which
 * later reads subscribe, a re-run that reads nothing drops every earlier
 * subscription, the first run completes as the observer's body does,
 * a write through a proxy runs the observer that read the property, and
 * calling a reaction that is already running gives `undefined`.
 */
module Scenarios {
  import opened Types
  import opened JsHeap
  import opened Store
  import opened ReactionStack
  import opened Proxies
  import opened BaseHandlers
  import opened Execution
  import opened Observe

  /**
   * `observe(() => { p.a })` on a proxy `p` of `raw`: the new reaction ends
   * in the bucket of (raw, "a"), whatever the read gave.
   */
  method ObserveReadSubscribes(reg: Registry, store: Store, stack: ReactionStack, heap: Heap,
                               p: ObjId, raw: ObjId, fuel: nat)
    returns (c: Completion, result: Callable)
    requires Valid(reg, store, stack) && p in reg.proxyToRaw && reg.proxyToRaw[p] == raw
    modifies reg, store, stack, heap, store.known`cleaners
    ensures Valid(reg, store, stack)
    ensures result.ReactionFunction? && result.reaction in store.Bucket(raw, KeyOf(Str("a")))
  {
    var fn := UserFunction(Read(Const(Ref(p)), Const(Str("a")), Return(Const(Undefined))), false);
    ghost var log;
    c, result, log := Observe.Observe(reg, store, stack, heap, fn, fuel);
    assert log[0].raw == Some(raw);
    assert (raw, KeyOf(Str("a"))) in StepBuckets(log[0]);
  }

  /**
   * A reaction subscribed to (t, k), not running, whose function now returns
   * without reading anything: after `runReactionWrap` it is in no bucket at
   * all, (t, k) included.
   */
  method RerunDropsSubscriptions(reg: Registry, store: Store, stack: ReactionStack, heap: Heap,
                                 r: Reaction, t: ObjId, k: StoreKey, fuel: nat)
    returns (c: Completion)
    requires Valid(reg, store, stack) && r in store.known && !stack.IsRunning(r)
    requires r in store.Bucket(t, k)
    requires r.fn.UserFunction? && r.fn.body.Return?
    modifies reg, store`connections, stack, heap, store.known`cleaners
    ensures Valid(reg, store, stack)
    ensures r !in store.Bucket(t, k)
    ensures forall t': ObjId, k' :: r !in store.Bucket(t', k')
    ensures c == Normal(Eval(r.fn.body.result, []))
  {
    assert r.Listed((t, k));
    ghost var added, path, log, inner;
    c, added, path, log, inner := RunReactionWrap(reg, store, stack, heap, r, fuel);
    assert path == Tracked;
    assert log == [] && Elems(r.cleaners) == {};
    assert r in store.known;
    forall t': ObjId, k'
      ensures r !in store.Bucket(t', k')
    {
      assert (t', k') !in Elems(r.cleaners);
      assert !r.Listed((t', k'));
    }
  }

  /**
   * `observe(() => 7)`: the first run completes with 7 (a value `observe`
   * discards, returning the reaction), and the new reaction is subscribed
   * to nothing.
   */
  method ObserveCompletesAsBody(reg: Registry, store: Store, stack: ReactionStack, heap: Heap, fuel: nat)
    returns (c: Completion, result: Callable)
    requires Valid(reg, store, stack)
    modifies reg, store, stack, heap, store.known`cleaners
    ensures Valid(reg, store, stack)
    ensures c == Normal(Num(7))
    ensures result.ReactionFunction? && forall t: ObjId, k :: result.reaction !in store.Bucket(t, k)
  {
    var fn := UserFunction(Return(Const(Num(7))), false);
    ghost var log;
    c, result, log := Observe.Observe(reg, store, stack, heap, fn, fuel);
  }

  /** `p.a` read through a proxy `p` of `raw`, whose property `a` holds 1, gives 1. */
  method ReadThroughProxyGivesStored(reg: Registry, store: Store, stack: ReactionStack, heap: Heap, p: ObjId, raw: ObjId)
    returns (c: Completion)
    requires Valid(reg, store, stack) && p in reg.proxyToRaw && reg.proxyToRaw[p] == raw
    requires Lookup(heap.Props(raw), Str("a")) == Num(1)
    modifies reg, store`connections, stack.items`cleaners
    ensures c == Normal(Num(1))
  {
    ghost var added;
    c, added := ReadProperty(reg, store, stack, heap, Ref(p), Str("a"));
  }

  /** `observe(() => p.a)` where `raw.a` holds 1: the observer's first run completes with 1. */
  method ObserveSeesStored(reg: Registry, store: Store, stack: ReactionStack, heap: Heap,
                           p: ObjId, raw: ObjId, fuel: nat)
    returns (c: Completion, result: Callable)
    requires Valid(reg, store, stack) && p in reg.proxyToRaw && reg.proxyToRaw[p] == raw
    requires Lookup(heap.Props(raw), Str("a")) == Num(1)
    modifies reg, store, stack, heap, store.known`cleaners
    ensures c == Normal(Num(1))
  {
    var fn := UserFunction(Read(Const(Ref(p)), Const(Str("a")), Return(Var(0))), false);
    ghost var log;
    c, result, log := Observe.Observe(reg, store, stack, heap, fn, fuel);
    assert log[0].raw == Some(raw);
    assert log[0].seen == Num(1);
  }

  /**
   * `observe(() => p.flag ? p.a : undefined)` where `raw.flag` is true: the
   * branch reads `p.a`, so the new reaction ends in the bucket of (raw, "a")
   * as well as that of (raw, "flag").
   */
  method ObserveBranchSubscribes(reg: Registry, store: Store, stack: ReactionStack, heap: Heap,
                                 p: ObjId, raw: ObjId, fuel: nat)
    returns (c: Completion, result: Callable)
    requires Valid(reg, store, stack) && p in reg.proxyToRaw && reg.proxyToRaw[p] == raw
    requires Lookup(heap.Props(raw), Str("flag")) == Bool(true)
    modifies reg, store, stack, heap, store.known`cleaners
    ensures result.ReactionFunction?
    ensures result.reaction in store.Bucket(raw, KeyOf(Str("flag")))
    ensures result.reaction in store.Bucket(raw, KeyOf(Str("a")))
  {
    var readA := Read(Const(Ref(p)), Const(Str("a")), Return(Var(0)));
    var body := Read(Const(Ref(p)), Const(Str("flag")), Branch(Var(0), readA, Return(Const(Undefined))));
    ghost var log;
    c, result, log := Observe.Observe(reg, store, stack, heap, UserFunction(body, false), fuel);
    assert log[0].raw == Some(raw) && log[0].seen == Bool(true);
    assert log[0].result == Normal(Bool(true));
    ghost var env: seq<Value> := [Bool(true)];
    assert [] + env == env;
    assert Runs(Branch(Var(0), readA, Return(Const(Undefined))), env, log[1..], c);
    assert Truthy(Eval(Var(0), env));
    assert Runs(readA, env, log[1..], c);
    assert log[1..][0] == log[1];
    assert log[1].raw == Some(raw);
    assert (raw, KeyOf(Str("flag"))) in StepBuckets(log[0]);
    assert (raw, KeyOf(Str("a"))) in StepBuckets(log[1]);
    assert SubscribedBy(log) == StepBuckets(log[0]) + (StepBuckets(log[1]) + SubscribedBy(log[1..][1..]));
  }

  /**
   * A reaction that read `p.a` (its function is `() => p.a`) and nothing is
   * running: writing `p.a = 2` over a 1 is a `set` operation on (raw, "a"),
   * and unless the queue failed the reaction was invoked, once; every run of
   * it the queue made was tracked and read `p.a` again, so it re-subscribed.
   */
  method WriteRerunsReader(reg: Registry, store: Store, stack: ReactionStack, heap: Heap,
                           r: Reaction, p: ObjId, raw: ObjId, fuel: nat)
    returns (c: Completion, ghost queued: Option<Operation>, ghost invoked: seq<Reaction>, ghost runs: seq<Invocation>)
    requires Valid(reg, store, stack) && stack.items == [] && r in store.known
    requires p in reg.proxyToRaw && reg.proxyToRaw[p] == raw
    requires r.fn == UserFunction(Read(Const(Ref(p)), Const(Str("a")), Return(Var(0))), false)
    requires r in store.Bucket(raw, KeyOf(Str("a")))
    requires Str("a") in heap.Props(raw) && heap.Props(raw)[Str("a")] == Num(1)
    modifies reg, store`connections, stack, heap, store.known`cleaners
    ensures Valid(reg, store, stack)
    ensures queued == Some(Operation(SetOp, raw, Str("a")))
    ensures NoDuplicates(invoked) && |runs| == |invoked|
    ensures c.Normal? ==> r in invoked && exists i | 0 <= i < |runs| :: runs[i].reaction == r
    ensures forall i | 0 <= i < |runs| && runs[i].reaction == r ::
              && runs[i].path == Tracked && runs[i].log != []
              && (raw, KeyOf(Str("a"))) in StepBuckets(runs[i].log[0])
  {
    c, queued, invoked, runs := WriteProperty(reg, store, stack, heap, Ref(p), Str("a"), Num(2), fuel);
    forall i | 0 <= i < |runs| && runs[i].reaction == r
      ensures runs[i].path == Tracked && runs[i].log != []
      ensures (raw, KeyOf(Str("a"))) in StepBuckets(runs[i].log[0])
    {
      assert Ran([], old(reg.proxyToRaw), reg.proxyToRaw, runs[i]);
      assert runs[i].log[0].raw == Some(raw);
    }
    if c.Normal? {
      ghost var i :| 0 <= i < |invoked| && invoked[i] == r;
      assert runs[i].reaction == r;
    }
  }

  /**
   * Calling the function `observe` returned for a reaction that is already
   * running: `runReactionWrap` skips the reaction, and the call gives
   * `undefined`.
   */
  method CallRunningReactionGivesUndefined(reg: Registry, store: Store, stack: ReactionStack, heap: Heap,
                                           q: Reaction, fuel: nat)
    returns (c: Completion)
    requires Valid(reg, store, stack) && q in store.known && !q.unobserved && stack.IsRunning(q) && fuel > 0
    modifies reg, store`connections, stack, heap, store.known`cleaners
    ensures Valid(reg, store, stack)
    ensures c == Normal(Undefined)
  {
    ghost var added, log, inner;
    c, added, log, inner := RunCallable(reg, store, stack, heap, ReactionFunction(q), fuel);
  }
}

=== FILE: store.dfy ===
/**
 * The dependency store (`connectionStore`): for each raw object, a map from
 * key to the set ("bucket") of reactions subscribed to that key.
 *
 * A bucket is created once for its (raw, key) slot and is never replaced,
 * so it is identified here by that pair; a reaction's `cleaners` list holds
 * such pairs.
 */
module Store {
  import opened Types
  import opened JsHeap

  type Connections = map<ObjId, map<StoreKey, set<Reaction>>>

  /** The reactions in bucket (t, k); a bucket that does not exist reads as empty. */
  function BucketOf(c: Connections, t: ObjId, k: StoreKey): set<Reaction>
  {
    if t in c && k in c[t] then c[t][k] else {}
  }

  /** The key a tracked operation is registered under: `iterate` goes to the iteration key. */
  function TrackedKey(op: Operation): (k: StoreKey)
    ensures op.kind == IterateOp ==> k == IterationKey
    ensures op.kind != IterateOp ==> k == KeyOf(op.key) && k != IterationKey
  {
    if op.kind == IterateOp then IterationKey else KeyOf(op.key)
  }

  /** The key whose bucket stands for the shape of a target: `length` for arrays. */
  function ShapeKey(isArray: bool): StoreKey
  {
    if isArray then KeyOf(Str("length")) else IterationKey
  }

  /** Whether an operation changes the set of keys of its target. */
  predicate ChangesShape(kind: OpKind)
  {
    kind == AddOp || kind == DeleteOp || kind == ClearOp
  }

  /** The reactions a mutation must run again (what `getReactionsForOperation` computes). */
  function Triggered(c: Connections, op: Operation, isArray: bool): set<Reaction>
  {
    BucketOf(c, op.target, KeyOf(op.key))
      + (if ChangesShape(op.kind) then BucketOf(c, op.target, ShapeKey(isArray)) else {})
  }

  /** A reaction's cleaners after it is registered for bucket `b`: the bucket is appended unless it is already listed. */
  function Appended(cleaners: seq<Bucket>, b: Bucket): (r: seq<Bucket>)
    ensures Elems(r) == Elems(cleaners) + {b}
    ensures NoDuplicates(cleaners) ==> NoDuplicates(r)
  {
    if b in cleaners then cleaners else cleaners + [b]
  }

  /** `addReactionsForKey`: the accumulated set grows by the bucket of `key`, if there is one. */
  method AddReactionsForKey(acc: set<Reaction>, forTarget: map<StoreKey, set<Reaction>>, key: StoreKey)
    returns (r: set<Reaction>)
    ensures r == acc + (if key in forTarget then forTarget[key] else {})
  {
    r := acc;
    if key in forTarget {
      var rest := forTarget[key];
      while rest != {}
        invariant rest <= forTarget[key]
        invariant r == acc + (forTarget[key] - rest)
        decreases rest
      {
        var q :| q in rest;
        r := r + {q};
        rest := rest - {q};
      }
    }
  }

  class Store {
    var connections: Connections
    /** Every reaction that exists; the store's invariant speaks about each of them. */
    ghost var known: set<Reaction>

    constructor ()
      ensures connections == map[] && known == {}
      ensures Valid()
    {
      connections := map[];
      known := {};
    }

    function Bucket(t: ObjId, k: StoreKey): set<Reaction>
      reads this
    {
      BucketOf(connections, t, k)
    }

    /** The cleaners of every known reaction. */
    ghost function Cleaners(): map<Reaction, seq<Bucket>>
      reads this`known, known`cleaners
    {
      map q | q in known :: q.cleaners
    }

    /**
     * Buckets and cleaners agree: a known reaction is in bucket b exactly when
     * b is in its `cleaners`, each bucket at most once; buckets hold known reactions only.
     */
    ghost predicate Valid()
      reads this, known
    {
      && (forall t, k, q | t in connections && k in connections[t] && q in connections[t][k] :: q in known)
      && (forall q <- known :: NoDuplicates(q.cleaners))
      && (forall q <- known, b :: q.Listed(b) <==> q in BucketOf(connections, b.0, b.1))
    }

    /** A reaction just created, subscribed to nothing, becomes known; no bucket changes. */
    ghost method Admit(r: Reaction)
      requires Valid() && r !in known && r.cleaners == []
      modifies this`known
      ensures Valid() && known == old(known) + {r}
    {
      forall t, k | t in connections && k in connections[t]
        ensures r !in connections[t][k]
      {
      }
      known := known + {r};
    }

    /** `storeObservable`: the raw object gets an empty key-to-bucket map. */
    method StoreObservable(raw: ObjId)
      requires Valid()
      requires raw !in connections
      modifies this`connections
      ensures Valid() && known == old(known)
      ensures connections == old(connections)[raw := map[]]
      ensures forall k :: Bucket(raw, k) == {}
      ensures forall t: ObjId, k :: Bucket(t, k) == old(Bucket(t, k))
    {
      connections := connections[raw := map[]];
    }

    /**
     * `registerReactionForOperation`: the reaction joins the bucket of
     * (target, key), the bucket being created on first use, and the bucket is
     * appended to its cleaners unless the reaction was already in it.
     */
    method RegisterReactionForOperation(reaction: Reaction, op: Operation)
      requires Valid() && reaction in known
      requires op.target in connections
      modifies this`connections, reaction`cleaners
      ensures Valid() && known == old(known)
      ensures reaction in Bucket(op.target, TrackedKey(op))
      ensures connections == old(connections)[op.target :=
                old(connections)[op.target][TrackedKey(op) := old(Bucket(op.target, TrackedKey(op))) + {reaction}]]
      ensures forall t: ObjId, k :: Bucket(t, k) == old(Bucket(t, k)) + (if (t, k) == (op.target, TrackedKey(op)) then {reaction} else {})
      ensures reaction.cleaners == Appended(old(reaction.cleaners), (op.target, TrackedKey(op)))
      ensures reaction in old(Bucket(op.target, TrackedKey(op))) ==> connections == old(connections)
      ensures Elems(reaction.cleaners) == Elems(old(reaction.cleaners)) + {(op.target, TrackedKey(op))}
    {
      var key := TrackedKey(op);
      var forRaw := connections[op.target];
      // a missing bucket is created empty before the reaction is added to it
      var forKey := if key in forRaw then forRaw[key] else {};
      if reaction !in forKey {
        connections := connections[op.target := forRaw[key := forKey + {reaction}]];
        reaction.cleaners := reaction.cleaners + [(op.target, key)];
      } else {
        assert forKey + {reaction} == forKey;
        assert forRaw[key := forKey] == forRaw;
        assert connections[op.target := forRaw] == connections;
      }
      assert (op.target, key) in reaction.cleaners;
      forall q <- known, b: Bucket
        ensures q.Listed(b) <==> q in BucketOf(connections, b.0, b.1)
      {
        if q != reaction {
          assert q.cleaners == old(q.cleaners);
        }
      }
    }

    /** `getReactionsForOperation`: a new set; the store is left as it is. */
    method GetReactionsForOperation(heap: Heap, op: Operation) returns (r: set<Reaction>)
      requires op.target in connections
      ensures r == Triggered(connections, op, heap.IsArray(op.target))
    {
      var forTarget := connections[op.target];
      r := AddReactionsForKey({}, forTarget, KeyOf(op.key));
      if op.kind == AddOp || op.kind == DeleteOp || op.kind == ClearOp {
        var shapeKey := if heap.IsArray(op.target) then KeyOf(Str("length")) else IterationKey;
        r := AddReactionsForKey(r, forTarget, shapeKey);
      }
    }

    /**
     * `releaseReaction`: the reaction leaves every bucket in its cleaners and
     * its cleaners become empty; every other membership stays as it was.
     */
    method ReleaseReaction(reaction: Reaction)
      requires Valid() && reaction in known
      modifies this`connections, reaction`cleaners
      ensures Valid() && known == old(known)
      ensures reaction.cleaners == []
      ensures forall t: ObjId, k :: Bucket(t, k) == old(Bucket(t, k)) - {reaction}
      ensures forall t: ObjId, k :: reaction !in Bucket(t, k)
      ensures connections.Keys == old(connections.Keys)
      ensures forall t <- connections :: connections[t].Keys == old(connections[t].Keys)
    {
      var i := 0;
      while i < |reaction.cleaners|
        invariant 0 <= i <= |reaction.cleaners|
        invariant reaction.cleaners == old(reaction.cleaners) && known == old(known)
        invariant connections.Keys == old(connections.Keys)
        invariant forall t <- connections :: connections[t].Keys == old(connections[t].Keys)
        invariant forall t: ObjId, k :: Bucket(t, k) ==
                    if (t, k) in reaction.cleaners[..i] then old(Bucket(t, k)) - {reaction} else old(Bucket(t, k))
      {
        var (t, k) := reaction.cleaners[i];
        connections := connections[t := connections[t][k := connections[t][k] - {reaction}]];
        i := i + 1;
      }
      assert reaction.cleaners[..i] == reaction.cleaners;
      reaction.cleaners := [];
      forall q <- known, b: Bucket
        ensures b in q.cleaners <==> q in BucketOf(connections, b.0, b.1)
      {
        if q != reaction {
          assert q.cleaners == old(q.cleaners);
          assert q in BucketOf(connections, b.0, b.1) <==> q in old(BucketOf(connections, b.0, b.1));
        }
      }
      assert forall q <- known :: NoDuplicates(q.cleaners);
      forall t: ObjId, k, q | t in connections && k in connections[t] && q in connections[t][k]
        ensures q in known
      {
        assert q in Bucket(t, k);
      }
    }
  }
}

=== FILE: types.dfy ===
/**
 * Shared shapes of the runtime: JavaScript values, keys of the dependency
 * store, operation descriptors, raw objects, observer bodies and the
 * reaction object that `observe` creates.
 */
module Types {

  datatype Option<+T> = None | Some(value: T)

  /** Identity of a JavaScript object: a raw object of the application or a proxy. */
  type ObjId = nat

  /** A JavaScript value. Numbers are integers; function values are not modelled. */
  datatype Value =
    | Undefined
    | Null
    | Bool(b: bool)
    | Num(n: int)
    | Str(s: string)
    | Sym(id: nat)
    | Ref(id: ObjId)

  /**
   * A key of the dependency store: an ordinary key, or the private
   * `ITERATION_KEY` symbol, which no application key can be equal to.
   */
  datatype StoreKey = KeyOf(key: Value) | IterationKey

  /** A key-bucket of the store, identified by its raw object and key. */
  type Bucket = (ObjId, StoreKey)

  /** The `type` tag of an operation. */
  datatype OpKind = GetOp | IterateOp | AddOp | SetOp | DeleteOp | ClearOp | HasOp

  /**
   * An operation descriptor; `key` is `Undefined` where the source leaves it
   * out (iterate and clear).
   */
  datatype Operation = Operation(kind: OpKind, target: ObjId, key: Value)

  /** The constructor of a raw object, as seen by `obj.constructor`. */
  datatype Ctor =
    | ObjectCtor | ArrayCtor
    | MapCtor | SetCtor | WeakMapCtor | WeakSetCtor
    | Int8ArrayCtor | Uint8ArrayCtor | Uint8ClampedArrayCtor
    | Int16ArrayCtor | Uint16ArrayCtor | Int32ArrayCtor | Uint32ArrayCtor
    | Float32ArrayCtor | Float64ArrayCtor
    | OtherCtor(name: string)

  /**
   * The internal data of a Map/WeakMap (keys in insertion order and the
   * key-to-value map) or of a Set/WeakSet (elements in insertion order).
   */
  datatype Collection =
    | NoCollection
    | MapData(weak: bool, keys: seq<Value>, vals: map<Value, Value>)
    | SetData(weak: bool, elems: seq<Value>)

  /**
   * A raw object: its constructor (standing for its prototype), whether it
   * is an array (what `Array.isArray` tests, which holds for an instance of
   * a subclass of `Array` too), its own properties and its collection data.
   */
  datatype RawObject = RawObject(ctor: Ctor, isArray: bool, props: map<Value, Value>, coll: Collection)

  /** An error thrown by JavaScript code. */
  datatype JsError = TypeError | Thrown(value: Value)

  /**
   * How a piece of JavaScript finishes. `OutOfFuel` is not JavaScript: it is
   * the model's bound on chains of re-triggered reactions.
   */
  datatype Completion = Normal(value: Value) | Abrupt(error: JsError) | OutOfFuel

  /** An operand of an observer body: a constant, or the value of an earlier read. */
  datatype Operand = Const(v: Value) | Var(index: nat)

  /**
   * The body of a user function, as a finite tree of steps. `Read` appends
   * the value it reads to the environment, so later operands can use it.
   */
  datatype Script =
    | Return(result: Operand)
    | Raise(error: Operand)
    | Read(obj: Operand, key: Operand, next: Script)
    | Write(obj: Operand, key: Operand, value: Operand, next: Script)
    | Branch(cond: Operand, onTrue: Script, onFalse: Script)

  /**
   * A function passed to `observe`: a user function (with the value of its
   * `IS_REACTION` property), or a reaction function `observe` returned earlier.
   */
  datatype Callable =
    | UserFunction(body: Script, isReactionFlag: bool)
    | ReactionFunction(reaction: Reaction)

  /** The wrapper `observe` builds around a function, with its `cleaners` and `unobserved` fields. */
  class Reaction {
    /** The buckets this reaction was added to since it was last released. */
    var cleaners: seq<Bucket>
    var unobserved: bool
    /** The function the reaction runs. */
    const fn: Callable

    /** Whether bucket `b` is among the cleaners. */
    predicate Listed(b: Bucket)
      reads this
    {
      b in cleaners
    }

    constructor (fn: Callable)
      ensures this.fn == fn && cleaners == [] && !unobserved
    {
      this.fn := fn;
      cleaners := [];
      unobserved := false;
    }
  }

  /** Value of an operand in an environment; an unbound variable reads as `undefined`. */
  function Eval(o: Operand, env: seq<Value>): Value
  {
    match o
    case Const(v) => v
    case Var(i) => if i < |env| then env[i] else Undefined
  }

  /** JavaScript truthiness. */
  predicate Truthy(v: Value)
  {
    match v
    case Undefined => false
    case Null => false
    case Bool(b) => b
    case Num(n) => n != 0
    case Str(s) => s != ""
    case Sym(_) => true
    case Ref(_) => true
  }

  predicate NoDuplicates<T(==)>(s: seq<T>)
  {
    forall i, j :: 0 <= i < j < |s| ==> s[i] != s[j]
  }

  function Elems<T>(s: seq<T>): set<T>
  {
    set x | x in s
  }
}
